=== FILE: README.md ===
# Water-drop philosophy section, header, dot navigation and preloader: a Dafny model

This project models the interactive core of a single-page site's `scripts.js`:

- **WaterDrop** (`waterdrop.dfy`) models the `WaterDropEffect` ripple simulator.
  - `createWave` builds a ring around the tap whose maximum radius is 2.5 times the tap's distance to the canvas centre.
  - `triggerDrop` is the animating guard: one drop at a time.
  - `updateWave` advances one wave by a time step.
  - `animate` runs one frame: it updates every wave, keeps the survivors in order, and lowers the guard when none survive.
  - The random samples and the square root that a spawn consumes are parameters (`Draw`).
- **QuoteNarrator** (`narrator.dfy`) models `changeText`.
  - A change is guarded by `isChangingText`.
  - With the animation library and no reduced-motion preference, it runs in three steps: start, fade-out done (the text changes), fade-in done (the index advances and the guard drops).
  - Otherwise it runs in one step.
- **Philosophy** (`philosophy.dfy`) models `setupPhilosophy`.
  - The section is a state machine over page events: `pointerdown`, `touchstart` and `click` on the section, animation frames, the delayed `changeText` timer, and the two tween callbacks.
  - The wrapped `animate` schedules one text change when a drop cycle ends.
  - The reduced-motion click listener changes the text at once.
- **DotNavigation** (`dotnav.dfy`) models `updateActiveDot`.
  - The first pass picks the in-view section whose centre is nearest the window's middle line.
  - The fallback pass picks the section whose extent is nearest that line.
  - Ties go to the earlier section.
  - The dots whose `data-section` equals the winner's id are lit.
- **Header** (`header.dfy`) models the `setupHeader` scroll rule: the header hides exactly on a downward scroll past 30 pixels.
- **Preloader** (`preloader.dfy`) models the fake progress counter.
  - Each tick adds a whole step of 0 to 12, capped at 100.
  - Reaching 100 stops the counter and starts the exit.

Main results:

- A drop cycle always ends within 250 frames, because each frame takes 0.004 of a wave's life.
- The wrapped `animate` schedules exactly one text change per cycle.
- With reduced motion, one mouse click advances the quote twice whenever its drop outlives the press (see Findings).
- In animated mode, a drop cycle that ends while an earlier change is fading rotates nothing, so two completed cycles can advance the quote once (see Findings).
- A tap spawns exactly one wave when no frame ends its drop between the tap's events. A tap at the centre whose `click` comes after the first frame spawns a second drop.
- An animated change advances the quote by one and leaves the page quiet.
- Completed changes rotate through the quotes.
- The active section is uniquely determined and does not depend on the scroll offset.
- The header's state depends only on the last two scroll positions.
- The preloader's progress is the capped sum of its steps.

## Model

| member | source | states |
|---|---|---|
| `WaterDrop.NewWave` | scripts.js:227-249 | A spawned wave is a ring centred on the tap, with radius 0, life 1, opacity 0.8 and no captured thickness. It records the canvas centre in `centerX`/`centerY`, fields the page never reads. Its maximum radius is 2.5 times the tap's distance to the centre and is never negative. Its speed lies in [1.5, 1.8) and its thickness in [4, 6). |
| `WaterDrop.SpawnRadius` | scripts.js:229-241 | The square of a new wave's maximum radius is 6.25 times the squared distance from the tap to the canvas centre. |
| `WaterDrop.CreateWave` | scripts.js:227-253 | The simulator's wave list gains exactly the new wave, at the end. The guard and the canvas size are unchanged. |
| `WaterDrop.TriggerDrop` | scripts.js:342-350 | While animating, a tap changes nothing. Otherwise the guard goes up, the earlier waves stay as they were, and exactly one fresh wave is appended. |
| `WaterDrop.UpdateWave` | scripts.js:286-304 | The reported flag is true exactly when the updated wave has life left and is below its maximum radius. The radius grows by speed × dt × 60, so it strictly grows for a moving wave and a positive step. Life falls by dt × 0.25. Opacity is 0.8 × life, clamped at 0 once life is negative. The first update captures the spawn thickness. The thickness is then the larger of 0.5 and captured thickness × life. Position, centre, speed and maximum radius are kept. |
| `WaterDrop.Updates` | scripts.js:321-322 | The frame updates every wave once, in order, and loses none before the filter. |
| `WaterDrop.Survivors` | scripts.js:321-327 | The filter keeps no more waves than it was given, and every kept wave is alive. |
| `WaterDrop.KeptPositions` | scripts.js:321-327 | The filter's kept positions are valid and strictly increasing, and a position is kept exactly when its update reports the wave alive. |
| `WaterDrop.SurvivorsAreKept` | scripts.js:321-327 | The survivors are exactly the updated waves at the kept positions, in their original order. |
| `WaterDrop.Animate` | scripts.js:309-335 | A frame with waves replaces them by the filter's survivors, so the filter results below describe the frame. Every remaining wave is alive, and there are no more than before. The guard stays up exactly when it was up and waves remain. With no waves, a frame only lowers the guard. |
| `WaterDrop.FrameLifeLoss` | scripts.js:318 | One 0.016 s frame costs 0.004 of life, and 250 frames cost a fresh wave's whole life. |
| `WaterDrop.AnimateKeepsUpdated` | scripts.js:321-327 | Every wave left after a frame is the one-frame update of a wave that was there before it. |
| `WaterDrop.NoSurvivors` | scripts.js:321-327 | When every update reports its wave dead, the filter keeps nothing. |
| `WaterDrop.FrameLifeBound` | scripts.js:291 | If no wave has more than n frames of life, none has more than n − 1 after a frame. |
| `WaterDrop.LastFrame` | scripts.js:330-334 | If no wave has more than one frame of life, the next frame empties the list and lowers the guard. |
| `WaterDrop.WavesRetireWithin` | scripts.js:309-335 | If no wave has more than n ≥ 1 frames of life, n frames leave the simulator empty and idle. |
| `WaterDrop.LoneWaveFrame` | scripts.js:321-334 | A frame keeps a lone wave that outlives the next j ≥ 1 frames, updated, with the guard up. The updated wave outlives j − 1 frames. |
| `WaterDrop.TriggerDropKeepsInv` | scripts.js:342-350 | A tap keeps the reachable-state invariant: the guard is up exactly while waves live, and every wave is within its spawn bounds. A tap on an idle simulator leaves exactly the one new wave. |
| `WaterDrop.AnimateKeepsInv` | scripts.js:309-335 | A frame keeps the reachable-state invariant. |
| `WaterDrop.CycleEnds` | scripts.js:309-335 | From any reachable state, 250 frames leave the simulator empty and idle: every drop cycle ends. |
| `QuoteNarrator.NextIndex` | scripts.js:428 | The next index is always in range and wraps from the last quote to the first. |
| `QuoteNarrator.ChangeText` | scripts.js:424-461 | A call during a change is dropped. An animated call raises the guard and records the next index and its quote, with text and index unchanged. An immediate call shows the next quote, advances the index and leaves the guard down. |
| `QuoteNarrator.FadeOutComplete` | scripts.js:439-441 | The fade-out callback shows the recorded next quote and moves to the fade-in. It does nothing when no fade-out is pending. |
| `QuoteNarrator.FadeInComplete` | scripts.js:448-451 | The fade-in callback advances the index to the recorded one and drops the guard. It does nothing when no fade-in is pending. |
| `QuoteNarrator.InitialInv` | scripts.js:415-416 | The state after setup is reachable: index 0 and no change in progress. |
| `QuoteNarrator.StepsKeepInv` | scripts.js:424-461 | Every narrator step keeps the invariant. The index stays in range, the guard is up exactly while callbacks are pending, and the text is the current quote. The one exception is between the fade-out and the fade-in, when the text is already the next quote. |
| `QuoteNarrator.CompleteChangeAdvances` | scripts.js:424-461 | From a settled state, a completed change has the same result in both modes: the next quote is shown, the index points at it, and the guard is down. |
| `QuoteNarrator.RotateAdvances` | scripts.js:428-459 | After k ≤ (number of quotes) completed changes, the index has moved k places round the rotation and the text is the quote it points at. |
| `QuoteNarrator.FullRotationReturns` | scripts.js:428 | As many completed changes as there are quotes return the narrator to where it started. |
| `QuoteNarrator.PartialRotationMoves` | scripts.js:428 | Fewer completed changes than there are quotes never return to the starting index. |
| `Philosophy.ObservedTick` | scripts.js:466-475 | The wrapped frame advances the simulator exactly as the plain frame does. It schedules a change exactly when the guard was up and the frame left no waves, and then the guard is down. |
| `Philosophy.ObservedRun` | scripts.js:466-475 | Any number of wrapped frames leave the simulator exactly where the same number of plain frames would. |
| `Philosophy.IdleSchedulesNothing` | scripts.js:468-474 | Frames of an idle simulator never schedule a text change. |
| `Philosophy.CycleSchedulesOnce` | scripts.js:466-475 | If the guard is up and no wave has more than n ≥ 1 frames of life, the next n wrapped frames schedule exactly one text change. |
| `Philosophy.OneChangePerCycle` | scripts.js:466-475 | From any reachable animating state, 250 frames schedule exactly one text change and leave the simulator empty and idle. |
| `Philosophy.Step` | scripts.js:355-382 | A pointer event during a drop changes neither the simulator nor the scheduled changes. Frames touch only the simulator and the scheduled changes. A frame adds a scheduled change exactly when it ends a cycle. Timers and callbacks leave the simulator alone. Only a reduced-motion click changes the narrator among the pointer events. |
| `Philosophy.SetupInv` | scripts.js:415-419 | The page right after setup is reachable. |
| `Philosophy.StepKeepsInv` | scripts.js:355-382 | Every page event keeps the simulator's and the narrator's invariants. |
| `Philosophy.RunKeepsInv` | scripts.js:355-500 | Every sequence of page events keeps the invariants. |
| `Philosophy.OneTapOneWave` | scripts.js:372-378 | A burst of pointer events on an idle section, in any order and number with no frame between them, spawns exactly one wave: the first event's. No change is scheduled. |
| `Philosophy.SlowCentreTapSpawnsTwice` | scripts.js:342-350 | The guard holds only while the drop lives. A centre tap's drop dies on the first frame, so a `click` after that frame spawns a second drop, and a change is already scheduled. |
| `Philosophy.CentreDropDiesAtOnce` | scripts.js:303 | A drop spawned at the canvas centre has maximum radius 0, and one frame leaves the simulator empty and idle. |
| `Philosophy.PointersDropped` | scripts.js:343 | Pointer events during a drop change neither the simulator nor the scheduled changes. |
| `Philosophy.CycleFrames` | scripts.js:466-475 | The frames of a drop cycle leave the simulator idle and empty. They schedule exactly one more change and do not touch the narrator. |
| `Philosophy.AnimatedChangeRuns` | scripts.js:431-454 | The delayed timer and the two tween callbacks together perform one completed animated change and consume the scheduled change. |
| `Philosophy.AnimatedTapCycle` | scripts.js:419-475 | In animated mode, a tap, its drop's frames, the timer and the two callbacks leave the page quiet with the next quote shown and the index advanced by exactly one. |
| `Philosophy.CentreTapRuns` | scripts.js:466-475 | A tap at the canvas centre on an idle page spawns a drop that dies on the next frame. The frame ends the cycle, so the simulator is back where it was and one more `changeText` is scheduled. |
| `Philosophy.TapCycleStartsChange` | scripts.js:424-475 | In animated mode, a tap, its drop's frames and the timer leave the simulator as it was, nothing scheduled, and the change started: guard up and the fade-out pending. |
| `Philosophy.LateTimerDropped` | scripts.js:424-451 | A timer that fires during the fade-in, after the fade-out's callback, is dropped by the guard at line 425. The fade-in's callback then finishes only the change already running, and nothing is left scheduled. |
| `Philosophy.ChangeDuringTweenLost` | scripts.js:424-475 | As written: a tap's cycle starts a change, and a centre tap's cycle ends while that change is running, so both cycles have scheduled a change. The second timer fires during the fade-in. The page then ends quiet with the quote advanced once, not twice. |
| `Philosophy.DropOutlives` | scripts.js:466-475 | While a lone drop outlives them, wrapped frames schedule no text change and keep the drop animating. |
| `Philosophy.PressFrames` | scripts.js:466-475 | The frames between `pointerdown` and `click`, when the drop outlives them, change neither the narrator nor the scheduled changes. |
| `Philosophy.ReducedMotionClickStarts` | scripts.js:493-499 | With reduced motion, a mouse click whose drop outlives the press changes the text at once, exactly once. The drop is still animating afterwards, and nothing is scheduled. |
| `Philosophy.ReducedMotionCycleChanges` | scripts.js:466-475 | With reduced motion, the end of that drop still schedules a change, and its timer performs it at once. |
| `Philosophy.ReducedMotionClickAdvancesTwice` | scripts.js:478-500 | As written: with reduced motion and at least three quotes, one mouse click leaves the index at 2, not 1. This holds for any click whose drop outlives the press, followed by the drop's frames and the timer. |
| `Philosophy.OffCentreClickAdvancesTwice` | scripts.js:478-500 | The same for a concrete click at (200, 50) in a 400 × 300 section, released within 100 frames. |
| `Philosophy.StepIntended` | scripts.js:376-500 | Corrected handling. A pointer event is dropped while a text change is running or scheduled. With reduced motion, pointer events spawn no drop and schedule nothing. Every other event, and every pointer event on a page without reduced motion and with no change owed, is handled exactly as the page's own step does. |
| `Philosophy.StepIntendedReduced` | scripts.js:493-499 | Under the correction, a quiet reduced-motion page stays quiet and wave-free. A click completes one change, and any other event leaves the narrator alone. |
| `Philosophy.ReducedMotionOneChangePerClick` | scripts.js:478-500 | Under the correction, any event sequence on a reduced-motion page rotates the quote exactly once per click. |
| `Philosophy.ReducedMotionClickAdvancesOnce` | scripts.js:478-500 | Under the correction, the same mouse click advances the index once, however long the press. |
| `Philosophy.SettleStep` | scripts.js:424-475 | Under the correction, without reduced motion, each event keeps at most one change owed: a live drop, a scheduled timer or a running change. A tap that starts a drop adds exactly one completed change to what the page owes. Every other event moves the owed change along without losing it. |
| `Philosophy.GuardedDropsRotateOnce` | scripts.js:466-475 | Under the correction, any event sequence keeps at most one change owed. Once the owed change completes, the quote has rotated exactly once per drop started. |
| `Philosophy.EveryDropRotatesOnce` | scripts.js:466-475 | Under the correction, from a quiet page without reduced motion, at most one change is ever owed. Any event sequence that ends quiet has rotated the quote exactly once for every drop a tap started. |
| `DotNavigation.CentreDistance` | scripts.js:589-596 | The first pass's distance, computed in document coordinates, equals the viewport-relative distance from the section's centre to the middle line, whatever the scroll offset. |
| `DotNavigation.FallbackDistance` | scripts.js:612-625 | The fallback distance does not depend on the scroll offset. It is never negative, and it is 0 exactly for a section that spans the middle line. |
| `DotNavigation.ActiveSection` | scripts.js:578-632 | No section is chosen only when there are none. If any section is in view, the choice is the first in-view section with the smallest centre distance. Otherwise it is the first section with the smallest distance to its extent. |
| `DotNavigation.UpdateActiveDot` | scripts.js:578-643 | The section is chosen as above, and every dot is lit exactly when its `data-section` equals the chosen section's id. |
| `DotNavigation.ChosenUnique` | scripts.js:583-632 | At most one result meets the choice's description, so the lit dot is determined by the sections and the window height alone, not by the scroll offset. |
| `DotNavigation.FallbackIsOffCentre` | scripts.js:607-631 | When no section is in view, the fallback's winner lies strictly off the middle line and no section is closer. |
| `Header.OnScroll` | scripts.js:528-532 | Without the listener, a scroll changes nothing. With it, the header remembers the new position and is hidden exactly when the position moved down and is past 30 pixels. |
| `Header.ScrollDependsOnLastTwo` | scripts.js:527-532 | After any non-empty run of scrolls, the header's state depends only on the last two positions. The remembered position stands in for the earlier one after a single scroll. |
| `Header.NeverHidesWithoutListener` | scripts.js:526 | Without the scroll library, no sequence of scrolls ever hides the header. |
| `Header.UpOrNearTopShows` | scripts.js:530-532 | Scrolling up, or to within 30 pixels of the top, always shows the header. |
| `Preloader.Tick` | scripts.js:47-53 | A stopped counter ignores ticks. A running one moves to min(100, progress + step). It keeps running exactly while below 100, and starts exiting once it reaches 100. |
| `Preloader.TicksSum` | scripts.js:46-51 | From any state a started counter reaches, a run of ticks shows the sum of its steps capped at 100. The counter keeps running exactly while that sum stays below 100, and it stays reachable. |
| `Preloader.HundredTicksFinish` | scripts.js:45-53 | Once started, a counter whose every step is at least 1 is at 100, stopped and exiting after a hundred ticks. |

## Left out

- Drawing (`drawWave`, `clearRect`), device-pixel-ratio scaling and the no-canvas fallback are left out. They draw nothing that the model observes.
- Window resizes are not modelled. `resizeCanvas` (scripts.js:219) rewrites the canvas size that later spawns read, but the model fixes the size at setup, and `Philosophy.Step` keeps it unchanged.
- `requestAnimationFrame` is not modelled as a scheduler. Animation frames are events; a frame while the simulator is idle changes nothing but the guard.
- `Math.random()` and `Math.sqrt` are host calls.
  - The samples and the centre distance a spawn uses are a parameter (`Draw`), constrained to what the host can return.
  - The preloader's rounded step is a parameter from 0 to 12.
- IEEE floating point is modelled by exact reals, so rounding in the wave arithmetic and the distance comparisons is not modelled.
- Touch taps are modelled only as far as their events go. The `touchstart` listener is not passive and calls `preventDefault` (scripts.js:357, 377), which normally suppresses the `click` a tap would produce. On touch, therefore, the reduced-motion click listener does not fire. The model does not synthesise clicks, and a touch tap is the event sequence without `Click`.
- The translation from client coordinates to section coordinates is left out, and so is the `contextmenu` handler: neither affects the state.
- The page runs `initializeApp` twice: at scripts.js:720-724 when the document is ready, and again on `load` at scripts.js:727. It therefore sets up the philosophy section twice, with two simulators and two narrators sharing one canvas and one quote element, and installs the header and dot-navigation listeners twice. The model covers a single `setupPhilosophy`, `setupHeader` and `setupDotNavigation` call.
- The section is assumed to hold the first quote when the page starts.
- The text of the quotes is left out; only their number matters.
- The reduced-motion indicator dot and its 300 ms fade are left out: they are display only.
- The 500 ms delay before `changeText`, the tween durations and easing, the preloader's 120 ms interval and its exit tween are left out. Only the order of the events is modelled.
- Splitting headlines, the blob parallax, smooth scrolling, `scrollToSection` and the dot click handlers are left out. So are `checkViewport`, the scroll throttling and the setup guards that log a warning and return: none of them changes the modelled state.
- `DotNavigation.ActiveSection`: it requires non-empty section ids. The page's ids are the five fixed names at scripts.js:540-546. With an empty id, the page's truthiness test would run the fallback pass on top of the first pass's result; that case is not modelled.
- `DotNavigation.UpdateActiveDot` uses the same non-empty-id precondition. It also assumes each section's bottom is its top plus its height, as for any element with a non-negative height.
- `Header.OnScroll` takes the scroll position as a real. `window.scrollY || 0` differs from the position only for `NaN`, which is not modelled.
- `Preloader.HundredTicksFinish` covers only steps of at least 1. With steps of 0, which `Math.round` produces for small samples, the counter can stall for any finite number of ticks. So termination is proved only under that assumption.
- The animated change has no fail-safe: if a tween callback never fires, the guard stays up. The model follows the code, so no timeout clears the guard.

## Findings

| source | as written | input that shows it | evidently intended | confidence | as-written member | corrected member |
|---|---|---|---|---|---|---|
| scripts.js:466-500 | With reduced motion, the click listener at line 493 changes the quote at once. The drop that the same mouse click's `pointerdown` spawned keeps animating. When it fades, the wrapped `animate` schedules a second `changeText`. One mouse click therefore advances the quote twice. | Reduced motion and three or more quotes. A mouse click at (200, 50) in a 400 × 300 section, released within 100 frames of the press, spawns a drop with maximum radius 250 that outlives the press. It is followed by the drop's 250 frames and the timer. The index ends at 2. | One quote change per click, with no drop-driven change when reduced motion is asked for. | medium; not executed | `Philosophy.ReducedMotionClickAdvancesTwice` | `Philosophy.ReducedMotionOneChangePerClick` |
| scripts.js:424-475 | Taps are guarded only by the simulator's `isAnimating` (line 343), not by the text change. A tap during an animated change's 1.2 s tween can start a drop that ends before the tween does. That drop's timer then calls `changeText` while `isChangingText` holds, and the call returns at line 425, so the drop cycle changes nothing. The comment at line 471 promises a text change whenever an animation has finished. | Animated mode. Any tap, its drop's 250 frames, and the timer, which starts the first change. Then, as the 0.5 s fade-out begins, a tap at the canvas centre. Its drop has maximum radius 0 and dies on its first frame, so its timer fires about 0.52 s later, during the 0.7 s fade-in. The events are that frame, the fade-out's callback, the timer and the fade-in's callback. The page ends quiet with the index advanced by one after two completed cycles. | One quote change per completed drop cycle: pointer events are also ignored while a change is running or scheduled. | medium; not executed | `Philosophy.ChangeDuringTweenLost` | `Philosophy.EveryDropRotatesOnce` |

When the drop dies before the button is released, as for a click held near the centre, the click itself spawns a second drop (`Philosophy.SlowCentreTapSpawnsTwice`), and the quote can advance a third time.

The corrected step, `Philosophy.StepIntended`, makes both corrections. It handles every non-pointer event as the page's own step does. Without reduced motion, it also handles every pointer event that way while no text change is running or scheduled. The animated tap cycle (`Philosophy.AnimatedTapCycle`) starts from a quiet page and has no pointer event after its tap, so it runs unchanged under the correction.

=== FILE: dotnav.dfy ===
/** Model of `updateActiveDot` in `setupDotNavigation`: which page section
    the dot navigation marks as active.

    Each section is seen through its bounding rectangle: `top` relative to
    the viewport and `height`. A section is in view when it spans the
    horizontal line through the middle of the window. Among the sections in
    view the one whose centre is nearest that line wins; when none is in
    view, the section whose extent is nearest the line wins. Ties go to the
    earlier section, because both passes replace the best only on a strictly
    smaller distance. The dots are then lit exactly where their
    `data-section` attribute equals the winner's id. */
module DotNavigation {

  datatype Option<T> = None | Some(value: T)

  /** A section's id and its bounding rectangle, relative to the viewport. */
  datatype Section = Section(id: string, top: real, height: real)

  function Abs(x: real): real {
    if x < 0.0 then -x else x
  }

  /** The section spans the middle line of a window `windowHeight` high. */
  predicate InView(s: Section, windowHeight: real) {
    s.top <= windowHeight / 2.0 && s.top + s.height >= windowHeight / 2.0
  }

  /** Distance from the section's centre to the window's middle line. */
  function CentreGap(s: Section, windowHeight: real): real {
    Abs(windowHeight / 2.0 - (s.top + s.height / 2.0))
  }

  /** Distance from the section's extent to the window's middle line. */
  function IntervalGap(s: Section, windowHeight: real): real {
    if windowHeight / 2.0 < s.top then s.top - windowHeight / 2.0
    else if windowHeight / 2.0 > s.top + s.height then windowHeight / 2.0 - (s.top + s.height)
    else 0.0
  }

  /** The first pass's distance, computed in document coordinates as the page
      does: it does not depend on how far the page is scrolled. */
  function CentreDistance(s: Section, windowHeight: real, scrollY: real): (r: real)
    ensures r == CentreGap(s, windowHeight)
  {
    var elementTop := s.top + scrollY;
    var viewportCenter := scrollY + windowHeight / 2.0;
    var elementCenter := elementTop + s.height / 2.0;
    Abs(viewportCenter - elementCenter)
  }

  /** The fallback pass's distance in document coordinates: it does not depend
      on the scroll position, and it is 0 exactly for a section in view. */
  function FallbackDistance(s: Section, windowHeight: real, scrollY: real): (r: real)
    ensures r == IntervalGap(s, windowHeight)
    ensures r >= 0.0
    ensures r == 0.0 <==> InView(s, windowHeight)
  {
    var elementTop := s.top + scrollY;
    var elementBottom := elementTop + s.height;
    var viewportCenter := scrollY + windowHeight / 2.0;
    if viewportCenter < elementTop then elementTop - viewportCenter
    else if viewportCenter > elementBottom then viewportCenter - elementBottom
    else 0.0
  }

  /** The page's section ids are fixed, non-empty names. The page skips the
      fallback pass only when the first pass found a (truthy) id, so the
      passes below describe it only for non-empty ids. */
  predicate NamedSections(secs: seq<Section>) {
    forall i :: 0 <= i < |secs| ==> secs[i].id != ""
  }

  ghost predicate AnyInView(secs: seq<Section>, windowHeight: real) {
    exists i :: 0 <= i < |secs| && InView(secs[i], windowHeight)
  }

  /** `k` is the first of the in-view sections with the smallest centre gap. */
  ghost predicate FirstNearestInView(secs: seq<Section>, windowHeight: real, k: nat) {
    && k < |secs|
    && InView(secs[k], windowHeight)
    && (forall j :: 0 <= j < k && InView(secs[j], windowHeight) ==>
          CentreGap(secs[j], windowHeight) > CentreGap(secs[k], windowHeight))
    && (forall j :: k < j < |secs| && InView(secs[j], windowHeight) ==>
          CentreGap(secs[j], windowHeight) >= CentreGap(secs[k], windowHeight))
  }

  /** `k` is the first of all sections with the smallest interval gap. */
  ghost predicate FirstNearest(secs: seq<Section>, windowHeight: real, k: nat) {
    && k < |secs|
    && (forall j :: 0 <= j < k ==> IntervalGap(secs[j], windowHeight) > IntervalGap(secs[k], windowHeight))
    && (forall j :: k < j < |secs| ==> IntervalGap(secs[j], windowHeight) >= IntervalGap(secs[k], windowHeight))
  }

  /** The section the navigation should mark: none only when there are no
      sections; the nearest in-view section when there is one; otherwise the
      nearest section. */
  ghost predicate Chosen(secs: seq<Section>, windowHeight: real, k: Option<nat>) {
    && (k.None? <==> |secs| == 0)
    && (k.Some? && AnyInView(secs, windowHeight) ==> FirstNearestInView(secs, windowHeight, k.value))
    && (k.Some? && !AnyInView(secs, windowHeight) ==> FirstNearest(secs, windowHeight, k.value))
  }

  /** The two passes of `updateActiveDot`. `None` for the best distance plays
      the part of `Infinity`. */
  method ActiveSection(secs: seq<Section>, windowHeight: real, scrollY: real) returns (k: Option<nat>)
    requires NamedSections(secs)
    ensures Chosen(secs, windowHeight, k)
  {
    k := None;
    var minDistance: Option<real> := None;
    var i := 0;
    while i < |secs|
      invariant 0 <= i <= |secs|
      invariant k.None? <==> minDistance.None?
      invariant k.None? ==> forall j :: 0 <= j < i ==> !InView(secs[j], windowHeight)
      invariant k.Some? ==> && k.value < i
                            && InView(secs[k.value], windowHeight)
                            && minDistance.value == CentreGap(secs[k.value], windowHeight)
                            && (forall j :: 0 <= j < k.value && InView(secs[j], windowHeight) ==>
                                  CentreGap(secs[j], windowHeight) > minDistance.value)
                            && (forall j :: k.value < j < i && InView(secs[j], windowHeight) ==>
                                  CentreGap(secs[j], windowHeight) >= minDistance.value)
    {
      var distance := CentreDistance(secs[i], windowHeight, scrollY);
      if InView(secs[i], windowHeight) && (minDistance.None? || distance < minDistance.value) {
        minDistance := Some(distance);
        k := Some(i);
      }
      i := i + 1;
    }
    if k.Some? && secs[k.value].id != "" {
      return;
    }
    i := 0;
    while i < |secs|
      invariant 0 <= i <= |secs|
      invariant k.None? <==> minDistance.None?
      invariant k.None? <==> i == 0
      invariant k.Some? ==> && k.value < i
                            && minDistance.value == IntervalGap(secs[k.value], windowHeight)
                            && (forall j :: 0 <= j < k.value ==>
                                  IntervalGap(secs[j], windowHeight) > minDistance.value)
                            && (forall j :: k.value < j < i ==>
                                  IntervalGap(secs[j], windowHeight) >= minDistance.value)
    {
      var distance := FallbackDistance(secs[i], windowHeight, scrollY);
      if minDistance.None? || distance < minDistance.value {
        minDistance := Some(distance);
        k := Some(i);
      }
      i := i + 1;
    }
  }

  /** The id of the chosen section, `null` when there is none. */
  function IdOf(secs: seq<Section>, k: Option<nat>): Option<string>
    requires k.Some? ==> k.value < |secs|
  {
    if k.Some? then Some(secs[k.value].id) else None
  }

  /** `updateActiveDot`: choose the section, then light each dot whose
      `data-section` (absent as `None`) equals the chosen id. */
  method UpdateActiveDot(secs: seq<Section>, windowHeight: real, scrollY: real, dots: seq<Option<string>>)
    returns (k: Option<nat>, lit: seq<bool>)
    requires NamedSections(secs)
    ensures Chosen(secs, windowHeight, k)
    ensures |lit| == |dots|
    ensures forall i :: 0 <= i < |dots| ==> (lit[i] <==> dots[i] == IdOf(secs, k))
  {
    k := ActiveSection(secs, windowHeight, scrollY);
    var active := IdOf(secs, k);
    lit := [];
    var i := 0;
    while i < |dots|
      invariant 0 <= i <= |dots|
      invariant |lit| == i
      invariant forall j :: 0 <= j < i ==> (lit[j] <==> dots[j] == active)
    {
      lit := lit + [dots[i] == active];
      i := i + 1;
    }
  }

  /** At most one section is the first nearest in-view one. */
  lemma FirstNearestInViewUnique(secs: seq<Section>, windowHeight: real, k1: nat, k2: nat)
    requires FirstNearestInView(secs, windowHeight, k1) && FirstNearestInView(secs, windowHeight, k2)
    ensures k1 == k2
  {
  }

  /** At most one section is the first nearest one. */
  lemma FirstNearestUnique(secs: seq<Section>, windowHeight: real, k1: nat, k2: nat)
    requires FirstNearest(secs, windowHeight, k1) && FirstNearest(secs, windowHeight, k2)
    ensures k1 == k2
  {
    // Each is no farther than the other, so the two gaps are equal, and
    // only the same index can have no strictly farther section before it.
    assert IntervalGap(secs[k1], windowHeight) <= IntervalGap(secs[k2], windowHeight);
    assert IntervalGap(secs[k2], windowHeight) <= IntervalGap(secs[k1], windowHeight);
  }

  /** The choice is determined by the sections and the window height alone:
      two results that both meet the description are the same. In particular
      the scroll position does not change which dot is lit. */
  lemma ChosenUnique(secs: seq<Section>, windowHeight: real, k1: Option<nat>, k2: Option<nat>)
    requires Chosen(secs, windowHeight, k1) && Chosen(secs, windowHeight, k2)
    ensures k1 == k2
  {
    if k1.Some? && k2.Some? {
      if AnyInView(secs, windowHeight) {
        FirstNearestInViewUnique(secs, windowHeight, k1.value, k2.value);
      } else {
        FirstNearestUnique(secs, windowHeight, k1.value, k2.value);
      }
    }
  }

  /** When no section is in view, the fallback's winner lies strictly off
      the middle line, and it is the nearest one: no section is closer. */
  lemma FallbackIsOffCentre(secs: seq<Section>, windowHeight: real, k: nat)
    requires !AnyInView(secs, windowHeight) && FirstNearest(secs, windowHeight, k)
    ensures IntervalGap(secs[k], windowHeight) > 0.0
    ensures forall j :: 0 <= j < |secs| ==> IntervalGap(secs[j], windowHeight) >= IntervalGap(secs[k], windowHeight)
  {
  }
}

=== FILE: header.dfy ===
/** Model of `setupHeader`: the site header hides while the page scrolls
    down past the first 30 pixels and shows again on any other scroll.
    Without the scroll library the listener is never installed and the
    header stays shown. */
module Header {

  /** Pixels from the top within which the header is always shown. */
  const HideThreshold: real := 30.0

  /** `last` is the previous scroll position the listener saw. */
  datatype Header = Header(listening: bool, last: real, hidden: bool)

  /** The header after setup: shown, and the previous position is 0. */
  function Setup(scrollTriggerLoaded: bool): Header {
    Header(scrollTriggerLoaded, 0.0, false)
  }

  /** The scroll listener, fed the new scroll position `y`. */
  function OnScroll(h: Header, y: real): (r: Header)
    ensures !h.listening ==> r == h
    ensures h.listening ==> r.listening && r.last == y
    ensures h.listening ==> (r.hidden <==> y > h.last && y > HideThreshold)
  {
    if !h.listening then h
    else
      var down := y > h.last;
      h.(last := y, hidden := down && y > HideThreshold)
  }

  /** The listener fed a sequence of scroll positions, in order. */
  function Scroll(h: Header, ys: seq<real>): Header
    decreases |ys|
  {
    if ys == [] then h else Scroll(OnScroll(h, ys[0]), ys[1..])
  }

  /** After one or more scroll events the header remembers the last position,
      and it is hidden exactly when that position is past the threshold and
      below the one before it (or below the remembered position, for a
      single event). Nothing earlier matters. */
  lemma {:induction false} ScrollDependsOnLastTwo(h: Header, ys: seq<real>)
    requires h.listening && |ys| > 0
    ensures var r := Scroll(h, ys);
            var y := ys[|ys| - 1];
            var prev := if |ys| == 1 then h.last else ys[|ys| - 2];
            && r.listening && r.last == y
            && (r.hidden <==> y > prev && y > HideThreshold)
    decreases |ys|
  {
    if |ys| > 1 {
      ScrollDependsOnLastTwo(OnScroll(h, ys[0]), ys[1..]);
    }
  }

  /** Without the scroll library nothing the user does hides the header. */
  lemma {:induction false} NeverHidesWithoutListener(ys: seq<real>)
    ensures Scroll(Setup(false), ys) == Setup(false)
    decreases |ys|
  {
    if ys != [] {
      NeverHidesWithoutListener(ys[1..]);
    }
  }

  /** Scrolling up, or staying within the threshold, always shows the header. */
  lemma UpOrNearTopShows(h: Header, y: real)
    requires h.listening && (y <= h.last || y <= HideThreshold)
    ensures !OnScroll(h, y).hidden
  {
  }
}

=== FILE: narrator.dfy ===
/** Model of the rotating quote of the philosophy section (`changeText` in
    `setupPhilosophy`).

    The narrator shows one quote of a fixed, non-empty list. A text change is
    guarded by `isChangingText`. With the animation library present and no
    reduced-motion preference, a change takes three steps: it starts (guard
    up), the fade-out finishes (the text becomes the next quote), and the
    fade-in finishes (the index advances and the guard drops). Otherwise the
    change happens in one step.
 */
module QuoteNarrator {

  /** The pending animation callbacks of a change in progress. `FadingOut`
      holds the index and text the change computed when it started. */
  datatype Tween =
    | Settled
    | FadingOut(nextIndex: nat, nextText: string)
    | FadingIn(nextIndex: nat)

  datatype Narrator = Narrator(currentIndex: nat, isChangingText: bool, text: string, tween: Tween)

  /** The state after page setup: index 0, no change in progress. */
  function Initial(text: string): Narrator {
    Narrator(0, false, text, Settled)
  }

  /** The index after `i` in a rotation of `n` quotes. */
  function NextIndex(i: nat, n: nat): (r: nat)
    requires n > 0
    ensures r < n
    ensures i < n ==> r == (if i + 1 == n then 0 else i + 1)
  {
    (i + 1) % n
  }

  /** `changeText`: dropped while a change is in progress; otherwise starts a
      change to the next quote, animated or immediate. */
  function ChangeText(s: Narrator, quotes: seq<string>, animated: bool): (r: Narrator)
    requires |quotes| > 0
    ensures s.isChangingText ==> r == s
    ensures !s.isChangingText && animated ==>
              && r.isChangingText
              && r.currentIndex == s.currentIndex && r.text == s.text
              && r.tween == FadingOut(NextIndex(s.currentIndex, |quotes|), quotes[NextIndex(s.currentIndex, |quotes|)])
    ensures !s.isChangingText && !animated ==>
              && !r.isChangingText && r.tween == s.tween
              && r.currentIndex == NextIndex(s.currentIndex, |quotes|)
              && r.text == quotes[r.currentIndex]
  {
    if s.isChangingText then s
    else
      var next := NextIndex(s.currentIndex, |quotes|);
      if animated then s.(isChangingText := true, tween := FadingOut(next, quotes[next]))
      else s.(text := quotes[next], currentIndex := next, isChangingText := false)
  }

  /** The fade-out callback: shows the text the change computed and starts the fade-in. */
  function FadeOutComplete(s: Narrator): (r: Narrator)
    ensures s.tween.FadingOut? ==> r == s.(text := s.tween.nextText, tween := FadingIn(s.tween.nextIndex))
    ensures !s.tween.FadingOut? ==> r == s
  {
    match s.tween
    case FadingOut(next, nextText) => s.(text := nextText, tween := FadingIn(next))
    case _ => s
  }

  /** The fade-in callback: advances the index and releases the guard. */
  function FadeInComplete(s: Narrator): (r: Narrator)
    ensures s.tween.FadingIn? ==>
              r == s.(currentIndex := s.tween.nextIndex, isChangingText := false, tween := Settled)
    ensures !s.tween.FadingIn? ==> r == s
  {
    match s.tween
    case FadingIn(next) => s.(currentIndex := next, isChangingText := false, tween := Settled)
    case _ => s
  }

  /** A whole change, run to completion in either mode. */
  function CompleteChange(s: Narrator, quotes: seq<string>, animated: bool): Narrator
    requires |quotes| > 0
  {
    var begun := ChangeText(s, quotes, animated);
    if animated then FadeInComplete(FadeOutComplete(begun)) else begun
  }

  /** The states the narrator can reach: the index is in range, the guard is
      up exactly while callbacks are pending, and the text is the current
      quote except after the fade-out, when it is already the next one. */
  ghost predicate Inv(s: Narrator, quotes: seq<string>) {
    && |quotes| > 0
    && s.currentIndex < |quotes|
    && (s.isChangingText <==> !s.tween.Settled?)
    && match s.tween
       case Settled => s.text == quotes[s.currentIndex]
       case FadingOut(next, nextText) =>
         && next == NextIndex(s.currentIndex, |quotes|)
         && nextText == quotes[next]
         && s.text == quotes[s.currentIndex]
       case FadingIn(next) =>
         && next == NextIndex(s.currentIndex, |quotes|)
         && s.text == quotes[next]
  }

  lemma InitialInv(quotes: seq<string>)
    requires |quotes| > 0
    ensures Inv(Initial(quotes[0]), quotes)
  {
  }

  lemma StepsKeepInv(s: Narrator, quotes: seq<string>, animated: bool)
    requires Inv(s, quotes)
    ensures Inv(ChangeText(s, quotes, animated), quotes)
    ensures Inv(FadeOutComplete(s), quotes)
    ensures Inv(FadeInComplete(s), quotes)
  {
  }

  /** From a settled state, a completed change has the same outcome in both
      modes: the next quote is shown, the index points at it, and the guard is down. */
  lemma CompleteChangeAdvances(s: Narrator, quotes: seq<string>, animated: bool)
    requires Inv(s, quotes) && !s.isChangingText
    ensures CompleteChange(s, quotes, animated)
            == s.(currentIndex := NextIndex(s.currentIndex, |quotes|),
                  text := quotes[NextIndex(s.currentIndex, |quotes|)])
    ensures Inv(CompleteChange(s, quotes, animated), quotes)
  {
  }

  /** `k` completed changes in a row. */
  function Rotate(s: Narrator, quotes: seq<string>, animated: bool, k: nat): Narrator
    requires |quotes| > 0
    decreases k
  {
    if k == 0 then s else Rotate(CompleteChange(s, quotes, animated), quotes, animated, k - 1)
  }

  /** `i + k` taken round a rotation of `n` positions, for `i < n` and `k <= n`. */
  function WrapAdd(i: nat, k: nat, n: nat): nat
  {
    if i + k < n then i + k else i + k - n
  }

  /** After `k <= |quotes|` completed changes the index has moved `k` places
      round the rotation, and the text is the quote it points at. */
  lemma {:induction false} RotateAdvances(s: Narrator, quotes: seq<string>, animated: bool, k: nat)
    requires Inv(s, quotes) && !s.isChangingText
    requires k <= |quotes|
    ensures Inv(Rotate(s, quotes, animated, k), quotes)
    ensures !Rotate(s, quotes, animated, k).isChangingText
    ensures Rotate(s, quotes, animated, k) == s.(currentIndex := WrapAdd(s.currentIndex, k, |quotes|),
                                                 text := quotes[WrapAdd(s.currentIndex, k, |quotes|)])
    decreases k
  {
    if k > 0 {
      var s1 := CompleteChange(s, quotes, animated);
      CompleteChangeAdvances(s, quotes, animated);
      RotateAdvances(s1, quotes, animated, k - 1);
    }
  }

  /** A full rotation: as many completed changes as there are quotes bring the
      narrator back to where it started. */
  lemma FullRotationReturns(s: Narrator, quotes: seq<string>, animated: bool)
    requires Inv(s, quotes) && !s.isChangingText
    ensures Rotate(s, quotes, animated, |quotes|) == s
  {
    RotateAdvances(s, quotes, animated, |quotes|);
  }

  /** Fewer completed changes than there are quotes never show the starting quote's index again. */
  lemma PartialRotationMoves(s: Narrator, quotes: seq<string>, animated: bool, k: nat)
    requires Inv(s, quotes) && !s.isChangingText
    requires 0 < k < |quotes|
    ensures Rotate(s, quotes, animated, k).currentIndex != s.currentIndex
  {
    RotateAdvances(s, quotes, animated, k);
  }
}

=== FILE: philosophy.dfy ===
/** Model of the philosophy section (`setupPhilosophy`): the water-drop
    simulator and the quote narrator wired together.

    The page is a state machine driven by events: the three pointer events a
    tap produces, animation frames, the delayed `changeText` timer, and the
    two tween callbacks of an animated change. Each frame runs the wrapped
    `animate`, which schedules one text change when a drop cycle ends.
 */
module Philosophy {
  import opened WaterDrop
  import opened QuoteNarrator

  datatype State = State(
    sim: Sim,
    narrator: Narrator,
    quotes: seq<string>,
    reducedMotion: bool,
    gsapLoaded: bool,
    /** `changeText` calls scheduled by the wrapped `animate` that have not run yet. */
    pendingChanges: nat)

  datatype Event =
    | PointerDown(x: real, y: real, draw: Draw)
    | TouchStart(x: real, y: real, draw: Draw)
    | Click(x: real, y: real, draw: Draw)
    | Frame
    | ChangeTimeout
    | FadeOutDone
    | FadeInDone
  {
    predicate IsPointer() { PointerDown? || TouchStart? || Click? }
  }

  /** Text changes are animated when the animation library is present and
      the reader has not asked for reduced motion. */
  predicate Animated(st: State) {
    st.gsapLoaded && !st.reducedMotion
  }

  /** An event the page can receive: its draw is one the host can produce. */
  predicate EventOk(width: real, height: real, e: Event) {
    e.IsPointer() ==> ValidDraw(width, height, e.x, e.y, e.draw)
  }

  /** The wrapped `animate`: one simulator frame, and whether it schedules a
      text change (the guard was up before the frame and is down, with no
      waves, after it). */
  function ObservedTick(sim: Sim): (r: (Sim, bool))
    ensures r.0 == Animate(sim)
    ensures r.1 <==> sim.isAnimating && r.0.waves == []
    ensures r.1 ==> !r.0.isAnimating
  {
    var next := Animate(sim);
    (next, sim.isAnimating && !next.isAnimating && next.waves == [])
  }

  /** `n` wrapped frames: the final simulator and how many text changes they scheduled. */
  function ObservedRun(sim: Sim, n: nat): (r: (Sim, nat))
    ensures r.0 == RunFrames(sim, n)
    decreases n
  {
    if n == 0 then (sim, 0)
    else
      var t := ObservedTick(sim);
      var rest := ObservedRun(t.0, n - 1);
      (rest.0, rest.1 + if t.1 then 1 else 0)
  }

  /** Frames of an idle simulator never schedule a text change. */
  lemma {:induction false} IdleSchedulesNothing(sim: Sim, n: nat)
    requires !sim.isAnimating
    ensures ObservedRun(sim, n).1 == 0
    decreases n
  {
    if n > 0 {
      IdleSchedulesNothing(Animate(sim), n - 1);
    }
  }

  /** `n` wrapped frames are one wrapped frame followed by `n - 1` more. */
  lemma ObservedRunStep(sim: Sim, n: nat, t: (Sim, bool))
    requires n >= 1 && t == ObservedTick(sim)
    ensures ObservedRun(sim, n).0 == ObservedRun(t.0, n - 1).0
    ensures ObservedRun(sim, n).1 == ObservedRun(t.0, n - 1).1 + (if t.1 then 1 else 0)
  {
  }

  /** A drop cycle schedules exactly one text change: if the guard is up and no
      wave has more than `n` frames of life left, `n` frames schedule one change. */
  lemma {:induction false} CycleSchedulesOnce(sim: Sim, n: nat)
    requires sim.isAnimating && n >= 1
    requires LifeAtMost(sim.waves, LifePerTick * n as real)
    ensures ObservedRun(sim, n).1 == 1
    decreases n, 1
  {
    var t := ObservedTick(sim);
    if n == 1 {
      FinalFrameSchedules(sim, n, t);
    } else if t.1 {
      EarlyEndSchedules(sim, n, t);
    } else {
      CycleContinues(sim, n, t);
    }
  }

  /** The last frame the lives allow ends the cycle and schedules the change. */
  lemma FinalFrameSchedules(sim: Sim, n: nat, t: (Sim, bool))
    requires n == 1 && sim.isAnimating && t == ObservedTick(sim)
    requires LifeAtMost(sim.waves, LifePerTick * n as real)
    ensures ObservedRun(sim, n).1 == 1
  {
    LastFrame(sim, LifePerTick * n as real);
    ObservedRunStep(sim, n, t);
    assert ObservedRun(t.0, n - 1).1 == 0;
  }

  /** A frame that ends the cycle early schedules the change, and the idle
      frames after it schedule nothing. */
  lemma EarlyEndSchedules(sim: Sim, n: nat, t: (Sim, bool))
    requires n >= 1 && t == ObservedTick(sim) && t.1
    ensures ObservedRun(sim, n).1 == 1
  {
    ObservedRunStep(sim, n, t);
    IdleSchedulesNothing(t.0, n - 1);
  }

  /** A frame that does not end the cycle schedules nothing and leaves one
      frame less of life. */
  lemma {:induction false} CycleContinues(sim: Sim, n: nat, t: (Sim, bool))
    requires n >= 2 && t == ObservedTick(sim) && !t.1 && sim.isAnimating
    requires LifeAtMost(sim.waves, LifePerTick * n as real)
    ensures ObservedRun(sim, n).1 == 1
    decreases n, 0
  {
    ObservedRunStep(sim, n, t);
    FrameLifeBound(sim, n);
    CycleSchedulesOnce(t.0, n - 1);
  }

  /** From any reachable animating state, `MaxTicks` frames schedule exactly one text change. */
  lemma OneChangePerCycle(sim: Sim)
    requires SimInv(sim) && sim.isAnimating
    ensures ObservedRun(sim, MaxTicks).1 == 1
    ensures RunFrames(sim, MaxTicks).waves == [] && !RunFrames(sim, MaxTicks).isAnimating
  {
    FrameLifeLoss();
    CycleSchedulesOnce(sim, MaxTicks);
    CycleEnds(sim);
  }

  /** One event, as the page handles it. A click is seen first by the
      simulator's listener and then, with reduced motion, by the listener
      that changes the text at once. */
  function Step(st: State, e: Event): (r: State)
    requires |st.quotes| > 0 && EventOk(st.sim.width, st.sim.height, e)
    ensures r.quotes == st.quotes && r.reducedMotion == st.reducedMotion && r.gsapLoaded == st.gsapLoaded
    ensures r.sim.width == st.sim.width && r.sim.height == st.sim.height
    ensures e.IsPointer() && st.sim.isAnimating ==> r.sim == st.sim
    ensures e.IsPointer() ==> r.pendingChanges == st.pendingChanges
    ensures e.Frame? ==> r.narrator == st.narrator
    ensures e.Frame? ==> r.pendingChanges == st.pendingChanges + (if st.sim.isAnimating && r.sim.waves == [] then 1 else 0)
    ensures !e.Frame? && !e.IsPointer() ==> r.sim == st.sim
    ensures (e.PointerDown? || e.TouchStart? || (e.Click? && !st.reducedMotion)) ==> r.narrator == st.narrator
  {
    match e
    case PointerDown(x, y, d) => st.(sim := TriggerDrop(st.sim, x, y, d))
    case TouchStart(x, y, d) => st.(sim := TriggerDrop(st.sim, x, y, d))
    case Click(x, y, d) =>
      var st1 := st.(sim := TriggerDrop(st.sim, x, y, d));
      if st.reducedMotion then st1.(narrator := ChangeText(st1.narrator, st.quotes, Animated(st))) else st1
    case Frame =>
      var t := ObservedTick(st.sim);
      st.(sim := t.0, pendingChanges := st.pendingChanges + if t.1 then 1 else 0)
    case ChangeTimeout =>
      if st.pendingChanges == 0 then st
      else st.(narrator := ChangeText(st.narrator, st.quotes, Animated(st)), pendingChanges := st.pendingChanges - 1)
    case FadeOutDone => st.(narrator := FadeOutComplete(st.narrator))
    case FadeInDone => st.(narrator := FadeInComplete(st.narrator))
  }

  /** The page states that can be reached. */
  ghost predicate Inv(st: State) {
    SimInv(st.sim) && QuoteNarrator.Inv(st.narrator, st.quotes)
  }

  /** The page right after setup. */
  function Setup(width: real, height: real, quotes: seq<string>, reducedMotion: bool, gsapLoaded: bool): State
    requires |quotes| > 0
  {
    State(Sim([], false, width, height), Initial(quotes[0]), quotes, reducedMotion, gsapLoaded, 0)
  }

  lemma SetupInv(width: real, height: real, quotes: seq<string>, reducedMotion: bool, gsapLoaded: bool)
    requires |quotes| > 0
    ensures Inv(Setup(width, height, quotes, reducedMotion, gsapLoaded))
  {
    InitialInv(quotes);
  }

  lemma StepKeepsInv(st: State, e: Event)
    requires Inv(st) && EventOk(st.sim.width, st.sim.height, e)
    ensures Inv(Step(st, e))
  {
    StepsKeepInv(st.narrator, st.quotes, Animated(st));
    match e
    case PointerDown(x, y, d) => TriggerDropKeepsInv(st.sim, x, y, d);
    case TouchStart(x, y, d) => TriggerDropKeepsInv(st.sim, x, y, d);
    case Click(x, y, d) => TriggerDropKeepsInv(st.sim, x, y, d);
    case Frame => AnimateKeepsInv(st.sim);
    case _ =>
  }

  /** A sequence of events the page can receive from state `st`. */
  ghost predicate EventsOk(width: real, height: real, es: seq<Event>) {
    forall e :: e in es ==> EventOk(width, height, e)
  }

  function Run(st: State, es: seq<Event>): (r: State)
    requires |st.quotes| > 0 && EventsOk(st.sim.width, st.sim.height, es)
    ensures r.quotes == st.quotes && r.reducedMotion == st.reducedMotion && r.gsapLoaded == st.gsapLoaded
    ensures r.sim.width == st.sim.width && r.sim.height == st.sim.height
    decreases |es|
  {
    if es == [] then st
    else
      assert es[0] in es;
      Run(Step(st, es[0]), es[1..])
  }

  lemma {:induction false} RunAppend(st: State, a: seq<Event>, b: seq<Event>)
    requires |st.quotes| > 0 && EventsOk(st.sim.width, st.sim.height, a + b)
    ensures EventsOk(st.sim.width, st.sim.height, a) && EventsOk(st.sim.width, st.sim.height, b)
    ensures Run(st, a + b) == Run(Run(st, a), b)
    decreases |a|
  {
    assert forall e :: e in a ==> e in a + b;
    assert forall e :: e in b ==> e in a + b;
    if a == [] {
      assert a + b == b;
    } else {
      assert (a + b)[1..] == a[1..] + b;
      assert a[0] in a;
      RunAppend(Step(st, a[0]), a[1..], b);
    }
  }

  lemma RunKeepsInv(st: State, es: seq<Event>)
    requires Inv(st) && EventsOk(st.sim.width, st.sim.height, es)
    ensures Inv(Run(st, es))
    decreases |es|
  {
    if es != [] {
      assert es[0] in es;
      StepKeepsInv(st, es[0]);
      RunKeepsInv(Step(st, es[0]), es[1..]);
    }
  }

  /** A burst of pointer events (`pointerdown`, `touchstart`, `click`, in any
      order and number, with no frame between them) spawns exactly one wave
      from an idle page: the first one spawns, the guard drops the rest. */
  lemma OneTapOneWave(st: State, first: Event, rest: seq<Event>)
    requires Inv(st) && !st.sim.isAnimating
    requires first.IsPointer() && EventOk(st.sim.width, st.sim.height, first)
    requires EventsOk(st.sim.width, st.sim.height, rest) && forall e :: e in rest ==> e.IsPointer()
    ensures EventsOk(st.sim.width, st.sim.height, [first] + rest)
    ensures Run(st, [first] + rest).sim == TriggerDrop(st.sim, first.x, first.y, first.draw)
    ensures |Run(st, [first] + rest).sim.waves| == 1
    ensures Run(st, [first] + rest).pendingChanges == st.pendingChanges
  {
    var es := [first] + rest;
    assert es[0] == first && es[1..] == rest;
    var st1 := Step(st, first);
    TriggerDropKeepsInv(st.sim, first.x, first.y, first.draw);
    PointersDropped(st1, rest);
  }

  /** The guard covers a tap only while its drop lives. A tap at the centre
      makes a drop with maximum radius 0, which dies on the first frame; when
      that frame comes between `pointerdown` and `click`, the click spawns a
      second drop, and the first one has already scheduled a text change. */
  lemma SlowCentreTapSpawnsTwice(st: State, x: real, y: real, d: Draw)
    requires Quiet(st) && st.sim.waves == []
    requires ValidDraw(st.sim.width, st.sim.height, x, y, d) && d.distance == 0.0
    ensures EventsOk(st.sim.width, st.sim.height, [PointerDown(x, y, d), Frame, Click(x, y, d)])
    ensures var r := Run(st, [PointerDown(x, y, d), Frame, Click(x, y, d)]);
            && r.sim.isAnimating && r.sim.waves == [NewWave(r.sim, x, y, d)]
            && r.pendingChanges == 1
  {
    var es := [PointerDown(x, y, d), Frame, Click(x, y, d)];
    assert EventOk(st.sim.width, st.sim.height, Click(x, y, d));
    var s1 := Step(st, PointerDown(x, y, d));
    CentreDropDiesAtOnce(st.sim, x, y, d);
    var s2 := Step(s1, Frame);
    var s3 := Step(s2, Click(x, y, d));
    TriggerDropKeepsInv(s2.sim, x, y, d);
    assert es[1..] == [Frame, Click(x, y, d)] && es[1..][1..] == [Click(x, y, d)] && es[1..][1..][1..] == [];
    assert Run(s2, [Click(x, y, d)]) == s3;
  }

  /** A drop spawned at the centre of the canvas is gone after one frame. */
  lemma CentreDropDiesAtOnce(sim: Sim, x: real, y: real, d: Draw)
    requires SimInv(sim) && !sim.isAnimating
    requires ValidDraw(sim.width, sim.height, x, y, d) && d.distance == 0.0
    ensures TriggerDrop(sim, x, y, d).isAnimating
    ensures Animate(TriggerDrop(sim, x, y, d)).waves == []
    ensures !Animate(TriggerDrop(sim, x, y, d)).isAnimating
  {
    TriggerDropKeepsInv(sim, x, y, d);
    var w := NewWave(sim, x, y, d);
    assert TriggerDrop(sim, x, y, d).waves == [w];
    assert !UpdateWave(w, FrameDelta).1;
    NoSurvivors([w], FrameDelta);
  }

  lemma {:induction false} PointersDropped(st: State, es: seq<Event>)
    requires |st.quotes| > 0 && st.sim.isAnimating
    requires EventsOk(st.sim.width, st.sim.height, es) && forall e :: e in es ==> e.IsPointer()
    ensures Run(st, es).sim == st.sim
    ensures Run(st, es).pendingChanges == st.pendingChanges
    decreases |es|
  {
    if es != [] {
      assert es[0] in es;
      assert forall e :: e in es[1..] ==> e in es;
      PointersDropped(Step(st, es[0]), es[1..]);
    }
  }

  /** `n` animation frames. */
  function Frames(n: nat): (es: seq<Event>)
    ensures |es| == n && forall e :: e in es ==> e == Frame
  {
    seq(n, _ => Frame)
  }

  /** Frames touch only the simulator and the pending-change count. */
  lemma {:induction false} FramesRun(st: State, n: nat)
    requires |st.quotes| > 0
    ensures EventsOk(st.sim.width, st.sim.height, Frames(n))
    ensures Run(st, Frames(n)) == st.(sim := ObservedRun(st.sim, n).0,
                                      pendingChanges := st.pendingChanges + ObservedRun(st.sim, n).1)
    decreases n
  {
    if n > 0 {
      assert Frames(n)[1..] == Frames(n - 1);
      FramesRun(Step(st, Frame), n - 1);
    }
  }

  /** The frames of a whole drop cycle: the simulator ends idle with no waves,
      one text change is scheduled, and the narrator is untouched. */
  lemma CycleFrames(st: State)
    requires Inv(st) && st.sim.isAnimating
    ensures EventsOk(st.sim.width, st.sim.height, Frames(MaxTicks))
    ensures var r := Run(st, Frames(MaxTicks));
            && Inv(r) && !r.sim.isAnimating && r.sim.waves == []
            && r.narrator == st.narrator && r.pendingChanges == st.pendingChanges + 1
  {
    FramesRun(st, MaxTicks);
    OneChangePerCycle(st.sim);
    RunKeepsInv(st, Frames(MaxTicks));
  }

  /** Events a cycle's frames followed by `tail` are possible when `tail`'s are. */
  lemma FramesThenOk(width: real, height: real, tail: seq<Event>)
    requires EventsOk(width, height, tail)
    ensures EventsOk(width, height, Frames(MaxTicks) + tail)
  {
    assert forall e :: e in Frames(MaxTicks) + tail ==> e in Frames(MaxTicks) || e in tail;
  }

  /** A quiet page: idle simulator, settled narrator, nothing scheduled. */
  ghost predicate Quiet(st: State) {
    Inv(st) && !st.sim.isAnimating && !st.narrator.isChangingText && st.pendingChanges == 0
  }

  /** The text change that ends an animated cycle: the delayed `changeText`
      and its two tween callbacks. */
  lemma {:induction false} AnimatedChangeRuns(st: State)
    requires Inv(st) && Animated(st) && !st.narrator.isChangingText && st.pendingChanges == 1
    ensures EventsOk(st.sim.width, st.sim.height, [ChangeTimeout, FadeOutDone, FadeInDone])
    ensures Run(st, [ChangeTimeout, FadeOutDone, FadeInDone])
            == st.(narrator := CompleteChange(st.narrator, st.quotes, true), pendingChanges := 0)
  {
    var es := [ChangeTimeout, FadeOutDone, FadeInDone];
    var s1 := Step(st, ChangeTimeout);
    var s2 := Step(s1, FadeOutDone);
    var s3 := Step(s2, FadeInDone);
    assert es[1..] == [FadeOutDone, FadeInDone] && es[1..][1..] == [FadeInDone];
    assert Run(s2, [FadeInDone]) == s3;
    assert Run(s1, [FadeOutDone, FadeInDone]) == s3;
  }

  /** One animated tap cycle: a tap, the frames of the drop, the delayed text
      change and its two tween callbacks leave the page quiet again with the
      next quote shown and the index advanced by one. */
  lemma AnimatedTapCycle(st: State, x: real, y: real, d: Draw)
    requires Quiet(st) && Animated(st) && ValidDraw(st.sim.width, st.sim.height, x, y, d)
    ensures EventsOk(st.sim.width, st.sim.height, [PointerDown(x, y, d)] + Frames(MaxTicks) + [ChangeTimeout, FadeOutDone, FadeInDone])
    ensures var r := Run(st, [PointerDown(x, y, d)] + Frames(MaxTicks) + [ChangeTimeout, FadeOutDone, FadeInDone]);
            && Quiet(r)
            && r.narrator.currentIndex == NextIndex(st.narrator.currentIndex, |st.quotes|)
            && r.narrator.text == st.quotes[r.narrator.currentIndex]
  {
    var tap := [PointerDown(x, y, d)];
    var frames := Frames(MaxTicks);
    var tail := [ChangeTimeout, FadeOutDone, FadeInDone];
    var st1 := Step(st, PointerDown(x, y, d));
    assert tap[1..] == [];
    assert Run(st, tap) == st1;
    StepKeepsInv(st, PointerDown(x, y, d));
    CycleFrames(st1);
    var st2 := Run(st1, frames);
    AnimatedChangeRuns(st2);
    FramesThenOk(st.sim.width, st.sim.height, tail);
    assert tap + frames + tail == tap + (frames + tail);
    RunAppend(st, tap, frames + tail);
    RunAppend(st1, frames, tail);
    CompleteChangeAdvances(st.narrator, st.quotes, true);
  }

  // ---------------------------------------------------------------------------
  // A change that arrives during a tween. Taps are guarded only by the
  // simulator, so a drop can start, end and schedule its `changeText` while
  // an earlier change is still fading; `changeText` then returns at once and
  // that drop cycle rotates nothing.

  /** A tap at the canvas centre and the single frame its drop lives. */
  function CentreTap(x: real, y: real, d: Draw): seq<Event> {
    [PointerDown(x, y, d), Frame]
  }

  /** A centre tap on an idle page ends its cycle at once: the simulator is
      back where it was and one more text change is scheduled. */
  lemma CentreTapRuns(st: State, x: real, y: real, d: Draw)
    requires Inv(st) && !st.sim.isAnimating
    requires ValidDraw(st.sim.width, st.sim.height, x, y, d) && d.distance == 0.0
    ensures EventsOk(st.sim.width, st.sim.height, CentreTap(x, y, d))
    ensures Run(st, CentreTap(x, y, d)) == st.(pendingChanges := st.pendingChanges + 1)
  {
    var es := CentreTap(x, y, d);
    assert EventOk(st.sim.width, st.sim.height, PointerDown(x, y, d));
    var s1 := Step(st, PointerDown(x, y, d));
    CentreDropDiesAtOnce(st.sim, x, y, d);
    TriggerDropKeepsInv(st.sim, x, y, d);
    var s2 := Step(s1, Frame);
    assert es[1..] == [Frame] && es[1..][1..] == [];
    assert Run(s1, [Frame]) == s2;
  }

  /** The events of two drop cycles whose second one ends during the first
      one's text change: a tap and its drop's frames, the timer that starts
      the change, a centre tap and its frame, the fade-out's callback, the
      second timer, and the fade-in's callback. */
  function TapDuringChange(x1: real, y1: real, d1: Draw, x2: real, y2: real, d2: Draw): seq<Event> {
    [PointerDown(x1, y1, d1)] + Frames(MaxTicks) + [ChangeTimeout] + CentreTap(x2, y2, d2)
    + [FadeOutDone, ChangeTimeout, FadeInDone]
  }

  lemma TapDuringChangeOk(width: real, height: real, x1: real, y1: real, d1: Draw, x2: real, y2: real, d2: Draw)
    requires ValidDraw(width, height, x1, y1, d1) && ValidDraw(width, height, x2, y2, d2)
    ensures EventsOk(width, height, TapDuringChange(x1, y1, d1, x2, y2, d2))
  {
  }

  /** An animated tap's cycle and its timer, on a quiet page, leave the
      simulator as it was and the first change fading out. */
  lemma TapCycleStartsChange(st: State, x: real, y: real, d: Draw)
    requires Quiet(st) && Animated(st) && ValidDraw(st.sim.width, st.sim.height, x, y, d)
    ensures EventsOk(st.sim.width, st.sim.height, [PointerDown(x, y, d)] + Frames(MaxTicks) + [ChangeTimeout])
    ensures Run(st, [PointerDown(x, y, d)] + Frames(MaxTicks) + [ChangeTimeout])
            == st.(narrator := ChangeText(st.narrator, st.quotes, true))
  {
    var tap, frames, timer := [PointerDown(x, y, d)], Frames(MaxTicks), [ChangeTimeout];
    assert EventOk(st.sim.width, st.sim.height, PointerDown(x, y, d));
    var s1 := Step(st, PointerDown(x, y, d));
    assert tap[1..] == [] && Run(st, tap) == s1;
    StepKeepsInv(st, PointerDown(x, y, d));
    CycleFrames(s1);
    var s2 := Run(s1, frames);
    assert timer[1..] == [] && Run(s2, timer) == Step(s2, ChangeTimeout);
    FramesThenOk(st.sim.width, st.sim.height, timer);
    assert tap + frames + timer == tap + (frames + timer);
    RunAppend(st, tap, frames + timer);
    RunAppend(s1, frames, timer);
  }

  /** As written: two completed drop cycles on an animated page rotate the
      quote once. The second cycle's timer fires while the first change is
      fading in, so `changeText` drops it, and the page ends quiet with nothing
      left to rotate. */
  lemma ChangeDuringTweenLost(st: State, x1: real, y1: real, d1: Draw, x2: real, y2: real, d2: Draw)
    requires Quiet(st) && Animated(st)
    requires ValidDraw(st.sim.width, st.sim.height, x1, y1, d1)
    requires ValidDraw(st.sim.width, st.sim.height, x2, y2, d2) && d2.distance == 0.0
    ensures EventsOk(st.sim.width, st.sim.height, TapDuringChange(x1, y1, d1, x2, y2, d2))
    ensures var mid := Run(st, [PointerDown(x1, y1, d1)] + Frames(MaxTicks) + [ChangeTimeout] + CentreTap(x2, y2, d2));
            && mid.sim == st.sim && mid.narrator.isChangingText && mid.pendingChanges == 1
    ensures var r := Run(st, TapDuringChange(x1, y1, d1, x2, y2, d2));
            && Quiet(r)
            && r.narrator == CompleteChange(st.narrator, st.quotes, true)
            && r.narrator.currentIndex == NextIndex(st.narrator.currentIndex, |st.quotes|)
  {
    var first := [PointerDown(x1, y1, d1)] + Frames(MaxTicks) + [ChangeTimeout];
    var centre, tail := CentreTap(x2, y2, d2), [FadeOutDone, ChangeTimeout, FadeInDone];
    TapDuringChangeOk(st.sim.width, st.sim.height, x1, y1, d1, x2, y2, d2);
    RunAppend(st, first + centre, tail);
    RunAppend(st, first, centre);
    // The first cycle starts its change; the second cycle ends while it runs.
    TapCycleStartsChange(st, x1, y1, d1);
    var s3 := Run(st, first);
    StepsKeepInv(st.narrator, st.quotes, true);
    CentreTapRuns(s3, x2, y2, d2);
    // Its timer is dropped; the callbacks finish the first change.
    LateTimerDropped(Run(s3, centre));
    CompleteChangeAdvances(st.narrator, st.quotes, true);
  }

  /** A timer that fires during a fade-in is dropped: the two callbacks
      finish only the change already running. */
  lemma LateTimerDropped(st: State)
    requires |st.quotes| > 0 && st.narrator.isChangingText && st.narrator.tween.FadingOut? && st.pendingChanges == 1
    ensures EventsOk(st.sim.width, st.sim.height, [FadeOutDone, ChangeTimeout, FadeInDone])
    ensures Run(st, [FadeOutDone, ChangeTimeout, FadeInDone])
            == st.(narrator := FadeInComplete(FadeOutComplete(st.narrator)), pendingChanges := 0)
  {
  }

  // ---------------------------------------------------------------------------
  // Reduced motion. The page still builds the simulator and binds its
  // listeners, and the reduced-motion click listener changes the text at
  // once. A click therefore changes the text immediately and, when the drop
  // it also spawned has faded, the wrapped `animate` schedules a second change.
  // The corrected handling, `StepIntended`, lets the click listener alone
  // drive the text when reduced motion is asked for.

  /** A mouse click: `pointerdown`, the `m` animation frames until the
      button is released, then `click` at the same point. The click reuses
      the draw; the guard drops it while the drop lives. */
  function MouseClick(x: real, y: real, d: Draw, m: nat): seq<Event> {
    [PointerDown(x, y, d)] + Frames(m) + [Click(x, y, d)]
  }

  /** A mouse click, the frames of its drop, and the timer the end of the cycle sets. */
  function ClickCycle(x: real, y: real, d: Draw, m: nat): seq<Event> {
    MouseClick(x, y, d, m) + Frames(MaxTicks) + [ChangeTimeout]
  }

  lemma ClickCycleOk(width: real, height: real, x: real, y: real, d: Draw, m: nat)
    requires ValidDraw(width, height, x, y, d)
    ensures EventsOk(width, height, MouseClick(x, y, d, m))
    ensures EventsOk(width, height, ClickCycle(x, y, d, m))
  {
    assert EventOk(width, height, PointerDown(x, y, d));
    assert EventOk(width, height, Click(x, y, d));
    var es := ClickCycle(x, y, d, m);
    assert forall e :: e in es ==>
      (e in [PointerDown(x, y, d)] || e in Frames(m) || e in [Click(x, y, d)] || e in Frames(MaxTicks) || e == ChangeTimeout);
  }

  /** While a lone drop outlives them, frames schedule nothing and keep it animating. */
  lemma {:induction false} DropOutlives(sim: Sim, j: nat)
    requires sim.isAnimating && |sim.waves| == 1 && Outlives(sim.waves[0], j)
    ensures ObservedRun(sim, j).1 == 0
    ensures ObservedRun(sim, j).0.isAnimating && |ObservedRun(sim, j).0.waves| == 1
    decreases j
  {
    if j > 0 {
      var t := ObservedTick(sim);
      LoneWaveFrame(sim, j);
      ObservedRunStep(sim, j, t);
      DropOutlives(t.0, j - 1);
    }
  }

  /** The frames between `pointerdown` and `click`, when the drop outlives
      them, leave the page as it was except for the drop's progress. */
  lemma PressFrames(st: State, m: nat)
    requires Inv(st) && st.sim.isAnimating && |st.sim.waves| == 1 && Outlives(st.sim.waves[0], m)
    ensures EventsOk(st.sim.width, st.sim.height, Frames(m))
    ensures var r := Run(st, Frames(m));
            && Inv(r) && r.sim.isAnimating
            && r.narrator == st.narrator && r.pendingChanges == st.pendingChanges
  {
    FramesRun(st, m);
    DropOutlives(st.sim, m);
    RunKeepsInv(st, Frames(m));
  }

  /** With reduced motion, a mouse click whose drop outlives the press
      changes the text once, at once, and leaves the drop animating with
      nothing scheduled. */
  lemma ReducedMotionClickStarts(st: State, x: real, y: real, d: Draw, m: nat)
    requires Quiet(st) && st.reducedMotion && st.sim.waves == []
    requires ValidDraw(st.sim.width, st.sim.height, x, y, d)
    requires Outlives(NewWave(st.sim, x, y, d), m)
    ensures EventsOk(st.sim.width, st.sim.height, MouseClick(x, y, d, m))
    ensures var r := Run(st, MouseClick(x, y, d, m));
            && Inv(r) && r.sim.isAnimating && r.pendingChanges == 0
            && r.narrator == CompleteChange(st.narrator, st.quotes, false)
  {
    var down, frames, click := [PointerDown(x, y, d)], Frames(m), [Click(x, y, d)];
    ClickCycleOk(st.sim.width, st.sim.height, x, y, d, m);
    var s1 := Step(st, PointerDown(x, y, d));
    StepKeepsInv(st, PointerDown(x, y, d));
    TriggerDropKeepsInv(st.sim, x, y, d);
    assert down[1..] == [] && Run(st, down) == s1;
    PressFrames(s1, m);
    var s2 := Run(s1, frames);
    var s3 := Step(s2, Click(x, y, d));
    StepKeepsInv(s2, Click(x, y, d));
    assert click[1..] == [] && Run(s2, click) == s3;
    RunAppend(st, down + frames, click);
    RunAppend(st, down, frames);
  }

  /** With reduced motion, the end of a drop cycle still changes the text:
      the frames schedule one change and the timer runs it at once. */
  lemma ReducedMotionCycleChanges(st: State)
    requires Inv(st) && st.reducedMotion && st.sim.isAnimating
    requires st.pendingChanges == 0 && !st.narrator.isChangingText
    ensures EventsOk(st.sim.width, st.sim.height, Frames(MaxTicks) + [ChangeTimeout])
    ensures Run(st, Frames(MaxTicks) + [ChangeTimeout]).narrator == CompleteChange(st.narrator, st.quotes, false)
  {
    var frames := Frames(MaxTicks);
    CycleFrames(st);
    var s3 := Run(st, frames);
    assert Run(s3, [ChangeTimeout]) == Step(s3, ChangeTimeout);
    FramesThenOk(st.sim.width, st.sim.height, [ChangeTimeout]);
    RunAppend(st, frames, [ChangeTimeout]);
  }

  /** As written: with reduced motion, one mouse click advances the quote
      twice: once from the click listener, at once, and once more when the
      drop its `pointerdown` spawned has faded and the wrapped `animate` fires
      its timer. This holds for every click whose drop outlives the press. */
  lemma ReducedMotionClickAdvancesTwice(width: real, height: real, quotes: seq<string>, gsapLoaded: bool,
                                        x: real, y: real, d: Draw, m: nat)
    requires |quotes| >= 3
    requires ValidDraw(width, height, x, y, d)
    requires Outlives(NewWave(Sim([], false, width, height), x, y, d), m)
    ensures EventsOk(width, height, ClickCycle(x, y, d, m))
    ensures Run(Setup(width, height, quotes, true, gsapLoaded), ClickCycle(x, y, d, m)).narrator.currentIndex == 2
  {
    var st := Setup(width, height, quotes, true, gsapLoaded);
    ClickCycleOk(width, height, x, y, d, m);
    SetupInv(width, height, quotes, true, gsapLoaded);
    var click := MouseClick(x, y, d, m);
    var rest := Frames(MaxTicks) + [ChangeTimeout];
    ReducedMotionClickStarts(st, x, y, d, m);
    var s2 := Run(st, click);
    CompleteChangeAdvances(st.narrator, quotes, false);
    ReducedMotionCycleChanges(s2);
    CompleteChangeAdvances(s2.narrator, quotes, false);
    assert ClickCycle(x, y, d, m) == click + rest;
    RunAppend(st, click, rest);
  }

  /** A concrete input: a mouse click at (200, 50) in a 400 x 300 section,
      100 pixels above the centre, with mid-range samples. */
  const OffCentreDraw: Draw := Draw(100.0, 0.5, 0.5)

  /** The click's drop reaches its maximum radius of 250 only after more than
      150 frames, so any click released within 100 frames advances the quote twice. */
  lemma OffCentreClickAdvancesTwice(quotes: seq<string>, gsapLoaded: bool, m: nat)
    requires |quotes| >= 3 && m <= 100
    ensures EventsOk(400.0, 300.0, ClickCycle(200.0, 50.0, OffCentreDraw, m))
    ensures Run(Setup(400.0, 300.0, quotes, true, gsapLoaded), ClickCycle(200.0, 50.0, OffCentreDraw, m))
              .narrator.currentIndex == 2
  {
    ReducedMotionClickAdvancesTwice(400.0, 300.0, quotes, gsapLoaded, 200.0, 50.0, OffCentreDraw, m);
  }

  /** Corrected: pointer events are dropped while a text change is running
      or scheduled, so no drop cycle can end during a tween; and with reduced
      motion, pointer events do not spawn drops: a click changes the text
      once, at once. */
  function StepIntended(st: State, e: Event): (r: State)
    requires |st.quotes| > 0 && EventOk(st.sim.width, st.sim.height, e)
    ensures r.quotes == st.quotes && r.reducedMotion == st.reducedMotion && r.gsapLoaded == st.gsapLoaded
    ensures r.sim.width == st.sim.width && r.sim.height == st.sim.height
    ensures e.IsPointer() && (st.narrator.isChangingText || st.pendingChanges > 0) ==> r == st
    ensures st.reducedMotion && e.IsPointer() ==> r.sim == st.sim && r.pendingChanges == st.pendingChanges
    ensures !e.IsPointer() ==> r == Step(st, e)
    ensures !st.reducedMotion && !st.narrator.isChangingText && st.pendingChanges == 0 ==> r == Step(st, e)
  {
    if e.IsPointer() && (st.narrator.isChangingText || st.pendingChanges > 0) then st
    else if st.reducedMotion && e.IsPointer() then
      if e.Click? then st.(narrator := ChangeText(st.narrator, st.quotes, Animated(st))) else st
    else Step(st, e)
  }

  function RunIntended(st: State, es: seq<Event>): State
    requires |st.quotes| > 0 && EventsOk(st.sim.width, st.sim.height, es)
    decreases |es|
  {
    if es == [] then st
    else
      assert es[0] in es;
      RunIntended(StepIntended(st, es[0]), es[1..])
  }

  /** The number of clicks in an event sequence. */
  function Clicks(es: seq<Event>): nat
  {
    if es == [] then 0 else (if es[0].Click? then 1 else 0) + Clicks(es[1..])
  }

  /** A quiet reduced-motion page with no waves stays so under any corrected step. */
  ghost predicate QuietReduced(st: State) {
    Quiet(st) && st.reducedMotion && st.sim.waves == []
  }

  lemma StepIntendedReduced(st: State, e: Event)
    requires QuietReduced(st) && EventOk(st.sim.width, st.sim.height, e)
    ensures QuietReduced(StepIntended(st, e))
    ensures StepIntended(st, e).narrator
            == (if e.Click? then CompleteChange(st.narrator, st.quotes, false) else st.narrator)
  {
    StepsKeepInv(st.narrator, st.quotes, false);
    if e.Frame? {
      AnimateKeepsInv(st.sim);
    }
  }

  /** With the correction, a reduced-motion page never holds a wave and shows
      exactly one quote change per click, whatever the events. */
  lemma {:induction false} ReducedMotionOneChangePerClick(st: State, es: seq<Event>)
    requires QuietReduced(st) && EventsOk(st.sim.width, st.sim.height, es)
    ensures QuietReduced(RunIntended(st, es))
    ensures RunIntended(st, es).narrator == Rotate(st.narrator, st.quotes, false, Clicks(es))
    decreases |es|
  {
    if es != [] {
      assert es[0] in es;
      var st1 := StepIntended(st, es[0]);
      StepIntendedReduced(st, es[0]);
      assert forall e :: e in es[1..] ==> e in es;
      ReducedMotionOneChangePerClick(st1, es[1..]);
      RotateSplit(st.narrator, st.quotes, false, if es[0].Click? then 1 else 0, Clicks(es[1..]));
    }
  }

  lemma {:induction false} RotateSplit(s: Narrator, quotes: seq<string>, animated: bool, a: nat, b: nat)
    requires |quotes| > 0
    ensures Rotate(s, quotes, animated, a + b) == Rotate(Rotate(s, quotes, animated, a), quotes, animated, b)
    decreases a
  {
    if a > 0 {
      RotateSplit(CompleteChange(s, quotes, animated), quotes, animated, a - 1, b);
    }
  }

  lemma {:induction false} ClicksAppend(a: seq<Event>, b: seq<Event>)
    ensures Clicks(a + b) == Clicks(a) + Clicks(b)
    decreases |a|
  {
    if a == [] {
      assert a + b == b;
    } else {
      assert (a + b)[1..] == a[1..] + b;
      ClicksAppend(a[1..], b);
    }
  }

  lemma {:induction false} FramesHaveNoClicks(n: nat)
    ensures Clicks(Frames(n)) == 0
    decreases n
  {
    if n > 0 {
      assert Frames(n)[1..] == Frames(n - 1);
      FramesHaveNoClicks(n - 1);
    }
  }

  /** The same input as in `ReducedMotionClickAdvancesTwice`, under the
      corrected handling, advances the quote once, however long the press. */
  lemma ReducedMotionClickAdvancesOnce(width: real, height: real, quotes: seq<string>, gsapLoaded: bool,
                                       x: real, y: real, d: Draw, m: nat)
    requires |quotes| >= 3
    requires ValidDraw(width, height, x, y, d)
    ensures EventsOk(width, height, ClickCycle(x, y, d, m))
    ensures RunIntended(Setup(width, height, quotes, true, gsapLoaded), ClickCycle(x, y, d, m)).narrator.currentIndex == 1
  {
    var st := Setup(width, height, quotes, true, gsapLoaded);
    var down, frames, click := [PointerDown(x, y, d)], Frames(m), [Click(x, y, d)];
    ClickCycleOk(width, height, x, y, d, m);
    SetupInv(width, height, quotes, true, gsapLoaded);
    ReducedMotionOneChangePerClick(st, ClickCycle(x, y, d, m));
    assert Clicks(down) == 0 by {
      assert down[1..] == [];
    }
    assert Clicks(click) == 1 by {
      assert click[1..] == [];
    }
    FramesHaveNoClicks(m);
    FramesHaveNoClicks(MaxTicks);
    ClicksAppend(down, frames);
    ClicksAppend(down + frames, click);
    ClicksAppend(MouseClick(x, y, d, m), Frames(MaxTicks));
    ClicksAppend(MouseClick(x, y, d, m) + Frames(MaxTicks), [ChangeTimeout]);
    assert Clicks([ChangeTimeout]) == 0 by {
      assert [ChangeTimeout][1..] == [];
    }
    assert Rotate(st.narrator, quotes, false, 1) == CompleteChange(st.narrator, quotes, false);
    CompleteChangeAdvances(st.narrator, quotes, false);
  }

  // The correction in motion mode: with taps guarded by the text change as
  // well, every drop a tap starts rotates the quote exactly once.

  /** The text changes the page still owes: one for a live drop cycle, one
      per scheduled timer, one for a change in progress. */
  function Owed(st: State): nat {
    (if st.sim.isAnimating then 1 else 0) + st.pendingChanges + (if st.narrator.isChangingText then 1 else 0)
  }

  /** The narrator once the change the page owes, if any, has run to completion. */
  function Settle(st: State): Narrator
    requires |st.quotes| > 0
  {
    match st.narrator.tween
    case FadingOut(_, _) => FadeInComplete(FadeOutComplete(st.narrator))
    case FadingIn(_) => FadeInComplete(st.narrator)
    case Settled =>
      if st.sim.isAnimating || st.pendingChanges > 0 then CompleteChange(st.narrator, st.quotes, Animated(st))
      else st.narrator
  }

  /** The states the corrected page keeps without reduced motion: at most one change owed at a time. */
  ghost predicate Settling(st: State) {
    Inv(st) && !st.reducedMotion && Owed(st) <= 1
  }

  /** The number of drops the corrected page starts on a run of events. */
  function DropsStarted(st: State, es: seq<Event>): nat
    requires |st.quotes| > 0 && EventsOk(st.sim.width, st.sim.height, es)
    decreases |es|
  {
    if es == [] then 0
    else
      assert es[0] in es;
      var st1 := StepIntended(st, es[0]);
      (if !st.sim.isAnimating && st1.sim.isAnimating then 1 else 0) + DropsStarted(st1, es[1..])
  }

  /** One corrected event keeps at most one change owed. A tap is taken only
      when nothing is owed, and then owes one more change; every other event
      moves the owed change along without losing it. */
  lemma SettleStep(st: State, e: Event)
    requires Settling(st) && EventOk(st.sim.width, st.sim.height, e)
    ensures Settling(StepIntended(st, e))
    ensures var st1 := StepIntended(st, e);
            Settle(st1) == if !st.sim.isAnimating && st1.sim.isAnimating
                           then CompleteChange(Settle(st), st.quotes, Animated(st)) else Settle(st)
  {
    StepKeepsInv(st, e);
    StepsKeepInv(st.narrator, st.quotes, Animated(st));
    if e.Frame? {
      AnimateKeepsInv(st.sim);
    }
  }

  /** The corrected run owes at most one change at every point, and the
      changes it leaves to finish, run to completion, rotate the quote once
      per drop started. */
  lemma {:induction false} GuardedDropsRotateOnce(st: State, es: seq<Event>)
    requires Settling(st) && EventsOk(st.sim.width, st.sim.height, es)
    ensures Settling(RunIntended(st, es))
    ensures Settle(RunIntended(st, es)) == Rotate(Settle(st), st.quotes, Animated(st), DropsStarted(st, es))
    decreases |es|
  {
    if es != [] {
      assert es[0] in es;
      var st1 := StepIntended(st, es[0]);
      SettleStep(st, es[0]);
      assert forall e :: e in es[1..] ==> e in es;
      GuardedDropsRotateOnce(st1, es[1..]);
      var inc := if !st.sim.isAnimating && st1.sim.isAnimating then 1 else 0;
      RotateSplit(Settle(st), st.quotes, Animated(st), inc, DropsStarted(st1, es[1..]));
    }
  }

  /** Corrected: from a quiet page without reduced motion, any run of events
      that leaves the page quiet has rotated the quote once for every drop a
      tap started, and no change was ever dropped on the way. */
  lemma EveryDropRotatesOnce(st: State, es: seq<Event>)
    requires Quiet(st) && !st.reducedMotion && EventsOk(st.sim.width, st.sim.height, es)
    ensures Owed(RunIntended(st, es)) <= 1
    ensures Quiet(RunIntended(st, es)) ==>
              RunIntended(st, es).narrator == Rotate(st.narrator, st.quotes, Animated(st), DropsStarted(st, es))
  {
    GuardedDropsRotateOnce(st, es);
  }
}

=== FILE: preloader.dfy ===
/** Model of the preloader's fake progress counter. Every interval tick adds
    a whole random step of 0 to 12 percent, capped at 100; reaching 100 stops
    the interval and starts the exit animation. Without the preloader element
    or the animation library the counter never starts. */
module Preloader {

  /** `Math.round(Math.random() * 12)` is an integer from 0 to 12. */
  const MaxStep: nat := 12

  datatype Loader = Loader(progress: nat, running: bool, exiting: bool)

  function Min(a: nat, b: nat): nat {
    if a <= b then a else b
  }

  /** The counter after setup: at 0, ticking only when the page has both. */
  function Setup(preloaderPresent: bool, gsapLoaded: bool): Loader {
    Loader(0, preloaderPresent && gsapLoaded, false)
  }

  /** One interval tick with random step `k`. */
  function Tick(l: Loader, k: nat): (r: Loader)
    requires k <= MaxStep
    ensures !l.running ==> r == l
    ensures l.running ==> r.progress == Min(100, l.progress + k)
    ensures l.running ==> (r.running <==> r.progress < 100)
    ensures l.running ==> (r.exiting <==> l.exiting || r.progress >= 100)
  {
    if !l.running then l
    else
      var p := Min(100, l.progress + k);
      if p >= 100 then Loader(p, false, true) else l.(progress := p)
  }

  ghost predicate Steps(ks: seq<nat>) {
    forall i :: 0 <= i < |ks| ==> ks[i] <= MaxStep
  }

  function Sum(ks: seq<nat>): nat {
    if ks == [] then 0 else ks[0] + Sum(ks[1..])
  }

  function Ticks(l: Loader, ks: seq<nat>): Loader
    requires Steps(ks)
    decreases |ks|
  {
    if ks == [] then l else Ticks(Tick(l, ks[0]), ks[1..])
  }

  /** The states a started counter can reach: it runs exactly while below 100,
      and it exits exactly once it has stopped. */
  ghost predicate Inv(l: Loader) {
    && l.progress <= 100
    && (l.running <==> l.progress < 100)
    && (l.exiting <==> !l.running)
  }

  /** From any state a started counter reaches, the shown progress is the sum of the
      steps capped at 100, and the counter keeps running exactly while that
      sum stays below 100. */
  lemma {:induction false} TicksSum(l: Loader, ks: seq<nat>)
    requires Inv(l) && Steps(ks)
    ensures Inv(Ticks(l, ks))
    ensures Ticks(l, ks).progress == Min(100, l.progress + Sum(ks))
    ensures Ticks(l, ks).running <==> l.progress + Sum(ks) < 100
    decreases |ks|
  {
    if ks != [] {
      assert Steps(ks[1..]) by {
        forall i | 0 <= i < |ks[1..]| ensures ks[1..][i] <= MaxStep {
          assert ks[1..][i] == ks[i + 1];
        }
      }
      TicksSum(Tick(l, ks[0]), ks[1..]);
    }
  }

  /** Steps of at least 1 add up to at least their number. */
  lemma {:induction false} SumAtLeastLength(ks: seq<nat>)
    requires forall i :: 0 <= i < |ks| ==> ks[i] >= 1
    ensures Sum(ks) >= |ks|
    decreases |ks|
  {
    if ks != [] {
      SumAtLeastLength(ks[1..]);
    }
  }

  /** A started counter whose every step is at least 1 is at 100, stopped
      and exiting, after a hundred ticks. */
  lemma HundredTicksFinish(ks: seq<nat>)
    requires Steps(ks) && |ks| >= 100
    requires forall i :: 0 <= i < |ks| ==> ks[i] >= 1
    ensures Ticks(Setup(true, true), ks) == Loader(100, false, true)
  {
    SumAtLeastLength(ks);
    TicksSum(Setup(true, true), ks);
  }
}

=== FILE: waterdrop.dfy ===
/** Model of the water-drop ripple simulator (`WaterDropEffect`).

    A simulator owns a list of expanding, fading rings ("waves"). A tap spawns
    one wave when the simulator is idle; every animation frame advances all
    waves by a fixed time step and drops the ones that have died. The random
    draws and the square root of the spawn are parameters of the model.
 */
module WaterDrop {

  /** Fixed time step of one frame, in seconds. */
  const FrameDelta: real := 0.016
  /** Radius growth per second is `speed * FrameRate`. */
  const FrameRate: real := 60.0
  /** Life lost per second. */
  const Decay: real := 0.25
  /** Life lost by one frame, `FrameDelta * Decay` (see `FrameLifeLoss`),
      written as a literal so that bounds in frames stay linear. */
  const LifePerTick: real := 0.004
  /** A fresh wave has life 1.0, so it cannot outlive this many frames. */
  const MaxTicks: nat := 250

  /** The maximum radius is this multiple of the distance to the canvas centre. */
  const RadiusFactor: real := 2.5
  const InitialOpacity: real := 0.8
  const MinSpeed: real := 1.5
  const SpeedSpread: real := 0.3
  const MinThickness: real := 4.0
  const ThicknessSpread: real := 2.0
  /** The stroke never gets thinner than this. */
  const ThicknessFloor: real := 0.5

  datatype Wave = Wave(
    x: real, y: real,
    radius: real, maxRadius: real,
    opacity: real, speed: real, thickness: real,
    life: real,
    /** 0 until the first update captures the spawn thickness. */
    initialThickness: real,
    centerX: real, centerY: real)

  /** The simulator: live waves, the animating guard and the cached canvas size. */
  datatype Sim = Sim(waves: seq<Wave>, isAnimating: bool, width: real, height: real)

  /** What one spawn consumes from the host: the distance from the tap to the
      canvas centre (the result of `Math.sqrt`) and two `Math.random()` samples. */
  datatype Draw = Draw(distance: real, speedSample: real, thicknessSample: real)

  function Sq(a: real): real { a * a }

  /** A draw is one the host can produce for a tap at (x, y). */
  predicate ValidDraw(width: real, height: real, x: real, y: real, d: Draw) {
    && 0.0 <= d.speedSample < 1.0
    && 0.0 <= d.thicknessSample < 1.0
    && d.distance >= 0.0
    && Sq(d.distance) == Sq(width / 2.0 - x) + Sq(height / 2.0 - y)
  }

  /** A wave survives a frame exactly when it still has life and has not reached its maximum radius. */
  predicate Alive(w: Wave) {
    w.life > 0.0 && w.radius < w.maxRadius
  }

  function Max(a: real, b: real): (r: real)
    ensures r >= a && r >= b && (r == a || r == b)
  {
    if a >= b then a else b
  }

  /** The wave `createWave` builds for a tap at (x, y). */
  function NewWave(sim: Sim, x: real, y: real, d: Draw): (w: Wave)
    requires ValidDraw(sim.width, sim.height, x, y, d)
    ensures w.x == x && w.y == y
    ensures w.centerX == sim.width / 2.0 && w.centerY == sim.height / 2.0
    ensures w.radius == 0.0 && w.life == 1.0 && w.initialThickness == 0.0
    ensures w.opacity == InitialOpacity
    ensures w.maxRadius == RadiusFactor * d.distance && w.maxRadius >= 0.0
    ensures MinSpeed <= w.speed < MinSpeed + SpeedSpread
    ensures MinThickness <= w.thickness < MinThickness + ThicknessSpread
  {
    var cx := sim.width / 2.0;
    var cy := sim.height / 2.0;
    var w := Wave(x, y, 0.0, d.distance * RadiusFactor, InitialOpacity,
                  MinSpeed + d.speedSample * SpeedSpread,
                  MinThickness + d.thicknessSample * ThicknessSpread,
                  1.0, 0.0, cx, cy);
    w
  }

  /** The maximum radius of a spawned wave is 2.5 times the distance from the
      tap to the canvas centre. */
  lemma SpawnRadius(sim: Sim, x: real, y: real, d: Draw)
    requires ValidDraw(sim.width, sim.height, x, y, d)
    ensures var w := NewWave(sim, x, y, d);
            w.maxRadius >= 0.0 && Sq(w.maxRadius) == 6.25 * (Sq(w.centerX - x) + Sq(w.centerY - y))
  {
    var w := NewWave(sim, x, y, d);
    assert Sq(w.maxRadius) == 6.25 * Sq(d.distance);
  }

  /** `createWave`: appends the new wave to the simulator. */
  function CreateWave(sim: Sim, x: real, y: real, d: Draw): (r: Sim)
    requires ValidDraw(sim.width, sim.height, x, y, d)
    ensures r.waves == sim.waves + [NewWave(sim, x, y, d)]
    ensures r.isAnimating == sim.isAnimating && r.width == sim.width && r.height == sim.height
  {
    sim.(waves := sim.waves + [NewWave(sim, x, y, d)])
  }

  /** `triggerDrop`: a guarded spawn. While a drop is animating the call is
      dropped; otherwise it raises the guard and adds exactly one fresh wave. */
  function TriggerDrop(sim: Sim, x: real, y: real, d: Draw): (r: Sim)
    requires ValidDraw(sim.width, sim.height, x, y, d)
    ensures sim.isAnimating ==> r == sim
    ensures !sim.isAnimating ==> && r.isAnimating
                                 && |r.waves| == |sim.waves| + 1
                                 && r.waves[..|sim.waves|] == sim.waves
                                 && r.waves[|sim.waves|] == NewWave(sim, x, y, d)
    ensures r.width == sim.width && r.height == sim.height
  {
    if sim.isAnimating then sim
    else CreateWave(sim.(isAnimating := true), x, y, d)
  }

  /** `updateWave`: one step of `dt` seconds. Returns the new wave and whether it is still alive. */
  function UpdateWave(w: Wave, dt: real): (r: (Wave, bool))
    ensures r.1 <==> Alive(r.0)
    ensures r.0.x == w.x && r.0.y == w.y && r.0.maxRadius == w.maxRadius && r.0.speed == w.speed
    ensures r.0.centerX == w.centerX && r.0.centerY == w.centerY
    ensures r.0.life == w.life - dt * Decay
    ensures dt > 0.0 ==> r.0.life < w.life
    ensures r.0.radius == w.radius + w.speed * dt * FrameRate
    ensures dt > 0.0 && w.speed > 0.0 ==> r.0.radius > w.radius
    ensures r.0.opacity >= 0.0 && (r.0.life >= 0.0 ==> r.0.opacity == InitialOpacity * r.0.life)
    ensures r.0.life < 0.0 ==> r.0.opacity == 0.0
    ensures r.0.thickness == Max(ThicknessFloor, r.0.initialThickness * r.0.life)
    ensures r.0.thickness >= ThicknessFloor
    ensures r.0.initialThickness == (if w.initialThickness == 0.0 then w.thickness else w.initialThickness)
  {
    var radius := w.radius + w.speed * dt * FrameRate;
    var life := w.life - dt * Decay;
    var opacity := Max(0.0, life * InitialOpacity);
    var initial := if w.initialThickness == 0.0 then w.thickness else w.initialThickness;
    var thickness := Max(ThicknessFloor, initial * life);
    var w' := w.(radius := radius, life := life, opacity := opacity,
                 initialThickness := initial, thickness := thickness);
    (w', life > 0.0 && radius < w.maxRadius)
  }

  /** `updateWave` applied to every wave, in order. */
  function Updates(ws: seq<Wave>, dt: real): (r: seq<(Wave, bool)>)
    ensures |r| == |ws|
    ensures forall i :: 0 <= i < |ws| ==> r[i] == UpdateWave(ws[i], dt)
  {
    if ws == [] then []
    else
      var rest := Updates(ws[1..], dt);
      assert forall i :: 1 <= i < |ws| ==> ws[i] == ws[1..][i - 1];
      [UpdateWave(ws[0], dt)] + rest
  }

  /** The updated waves whose update reported them alive, in order. */
  function Keep(ps: seq<(Wave, bool)>): (r: seq<Wave>)
    ensures |r| <= |ps|
    ensures forall v :: v in r ==> (v, true) in ps
  {
    if ps == [] then []
    else (if ps[0].1 then [ps[0].0] else []) + Keep(ps[1..])
  }

  /** The `filter` pass of `animate`: update every wave, in order, keeping the survivors. */
  function Survivors(ws: seq<Wave>, dt: real): (r: seq<Wave>)
    ensures |r| <= |ws|
    ensures forall w :: w in r ==> Alive(w)
  {
    var ps := Updates(ws, dt);
    assert forall v :: (v, true) in ps ==> Alive(v);
    Keep(ps)
  }

  /** Every position moved one place to the right. */
  function Shift(ks: seq<nat>): (r: seq<nat>)
    ensures |r| == |ks|
    ensures forall j :: 0 <= j < |ks| ==> r[j] == ks[j] + 1
  {
    if ks == [] then [] else [ks[0] + 1] + Shift(ks[1..])
  }

  lemma ShiftMembers(ks: seq<nat>, i: nat)
    ensures i in Shift(ks) <==> i >= 1 && i - 1 in ks
  {
    if i in Shift(ks) {
      var j :| 0 <= j < |ks| && Shift(ks)[j] == i;
      assert ks[j] == i - 1;
    }
    if i >= 1 && i - 1 in ks {
      var j :| 0 <= j < |ks| && ks[j] == i - 1;
      assert Shift(ks)[j] == i;
    }
  }

  /** The positions, in increasing order, of the updates that report their wave alive. */
  function Kept(ps: seq<(Wave, bool)>): seq<nat>
  {
    if ps == [] then []
    else (if ps[0].1 then [0] else []) + Shift(Kept(ps[1..]))
  }

  /** `Kept` lists valid positions. */
  lemma {:induction false} KeptBounded(ps: seq<(Wave, bool)>)
    ensures forall j :: 0 <= j < |Kept(ps)| ==> Kept(ps)[j] < |ps|
  {
    if ps != [] {
      KeptBounded(ps[1..]);
    }
  }

  /** `Kept` lists positions in strictly increasing order. */
  lemma {:induction false} KeptIncreasing(ps: seq<(Wave, bool)>)
    ensures forall j, j' :: 0 <= j < j' < |Kept(ps)| ==> Kept(ps)[j] < Kept(ps)[j']
  {
    if ps != [] {
      KeptIncreasing(ps[1..]);
    }
  }

  /** A position is in `Kept` exactly when its update reports the wave alive. */
  lemma {:induction false} KeptMembers(ps: seq<(Wave, bool)>, i: nat)
    requires i < |ps|
    ensures ps[i].1 <==> i in Kept(ps)
  {
    var head: seq<nat> := if ps[0].1 then [0] else [];
    var rest := Kept(ps[1..]);
    assert Kept(ps) == head + Shift(rest);
    ShiftMembers(rest, i);
    if i > 0 {
      assert ps[i] == ps[1..][i - 1];
      KeptMembers(ps[1..], i - 1);
    }
  }

  /** `Keep` returns as many waves as `Kept` lists positions. */
  lemma {:induction false} KeepCount(ps: seq<(Wave, bool)>)
    ensures |Keep(ps)| == |Kept(ps)|
  {
    if ps != [] {
      KeepCount(ps[1..]);
    }
  }

  /** The `j`-th kept wave is the wave at the `j`-th `Kept` position. */
  lemma {:induction false} KeepAt(ps: seq<(Wave, bool)>, j: nat)
    requires j < |Kept(ps)|
    ensures Kept(ps)[j] < |ps| && j < |Keep(ps)| && Keep(ps)[j] == ps[Kept(ps)[j]].0
  {
    KeepCount(ps);
    var tail := ps[1..];
    var head: seq<nat> := if ps[0].1 then [0] else [];
    var rest := Kept(tail);
    assert Kept(ps) == head + Shift(rest);
    assert Keep(ps) == (if ps[0].1 then [ps[0].0] else []) + Keep(tail);
    if j >= |head| {
      var j0 := j - |head|;
      KeepAt(tail, j0);
      assert Kept(ps)[j] == rest[j0] + 1;
      assert Keep(ps)[j] == Keep(tail)[j0];
    }
  }

  /** `Keep` returns exactly the waves at the `Kept` positions, in order. */
  lemma KeepIsKept(ps: seq<(Wave, bool)>)
    ensures |Keep(ps)| == |Kept(ps)|
    ensures forall j :: 0 <= j < |Kept(ps)| ==> Kept(ps)[j] < |ps| && Keep(ps)[j] == ps[Kept(ps)[j]].0
  {
    KeepCount(ps);
    forall j | 0 <= j < |Kept(ps)|
      ensures Kept(ps)[j] < |ps| && Keep(ps)[j] == ps[Kept(ps)[j]].0
    {
      KeepAt(ps, j);
    }
  }

  /** `Kept` lists, in strictly increasing order, exactly the positions whose update reports the wave alive. */
  lemma KeptPositions(ws: seq<Wave>, dt: real)
    ensures forall j :: 0 <= j < |Kept(Updates(ws, dt))| ==> Kept(Updates(ws, dt))[j] < |ws|
    ensures forall j, j' :: 0 <= j < j' < |Kept(Updates(ws, dt))| ==> Kept(Updates(ws, dt))[j] < Kept(Updates(ws, dt))[j']
    ensures forall i :: 0 <= i < |ws| ==> (UpdateWave(ws[i], dt).1 <==> i in Kept(Updates(ws, dt)))
  {
    var ps := Updates(ws, dt);
    KeptBounded(ps);
    KeptIncreasing(ps);
    forall i | 0 <= i < |ws|
      ensures UpdateWave(ws[i], dt).1 <==> i in Kept(ps)
    {
      KeptMembers(ps, i);
    }
  }

  /** `Survivors` keeps exactly the waves at the `Kept` positions, updated, in their original order. */
  lemma SurvivorsAreKept(ws: seq<Wave>, dt: real)
    ensures |Survivors(ws, dt)| == |Kept(Updates(ws, dt))|
    ensures forall j :: 0 <= j < |Kept(Updates(ws, dt))| ==>
              Kept(Updates(ws, dt))[j] < |ws| && Survivors(ws, dt)[j] == UpdateWave(ws[Kept(Updates(ws, dt))[j]], dt).0
  {
    KeepIsKept(Updates(ws, dt));
  }

  /** `animate` of the simulator, one frame: with no waves it only lowers the
      guard; otherwise it advances every wave by `FrameDelta`, keeps the
      survivors, and lowers the guard when none survived. */
  function Animate(sim: Sim): (r: Sim)
    ensures r.width == sim.width && r.height == sim.height
    ensures |r.waves| <= |sim.waves|
    ensures forall w :: w in r.waves ==> Alive(w)
    ensures r.isAnimating <==> sim.isAnimating && r.waves != []
    ensures sim.waves == [] ==> r == sim.(isAnimating := false)
    ensures sim.waves != [] ==> r.waves == Survivors(sim.waves, FrameDelta)
  {
    if |sim.waves| == 0 then sim.(isAnimating := false)
    else
      var survivors := Survivors(sim.waves, FrameDelta);
      if |survivors| > 0 then sim.(waves := survivors)
      else sim.(waves := survivors, isAnimating := false)
  }

  /** One frame's loss of life, `FrameDelta * Decay`, is `LifePerTick`, so a
      fresh wave's life lasts exactly `MaxTicks` frames. */
  lemma FrameLifeLoss()
    ensures FrameDelta * Decay == LifePerTick
    ensures LifePerTick * MaxTicks as real == 1.0
  {
  }

  /** After a frame, every wave left was a wave before the frame, updated by `FrameDelta`. */
  lemma {:induction false} AnimateKeepsUpdated(sim: Sim)
    requires sim.waves != []
    ensures forall j :: 0 <= j < |Animate(sim).waves| ==>
              exists i :: 0 <= i < |sim.waves| && Animate(sim).waves[j] == UpdateWave(sim.waves[i], FrameDelta).0
  {
    SurvivorsAreKept(sim.waves, FrameDelta);
    var ks := Kept(Updates(sim.waves, FrameDelta));
    forall j | 0 <= j < |Animate(sim).waves|
      ensures exists i :: 0 <= i < |sim.waves| && Animate(sim).waves[j] == UpdateWave(sim.waves[i], FrameDelta).0
    {
      var i := ks[j];
      assert Animate(sim).waves[j] == UpdateWave(sim.waves[i], FrameDelta).0;
    }
  }

  /** When no update reports its wave alive, nothing is kept. */
  lemma {:induction false} NoneKept(ps: seq<(Wave, bool)>)
    requires forall i :: 0 <= i < |ps| ==> !ps[i].1
    ensures Keep(ps) == []
  {
    if ps != [] {
      assert forall i :: 0 <= i < |ps[1..]| ==> ps[1..][i] == ps[i + 1];
      NoneKept(ps[1..]);
    }
  }

  lemma NoSurvivors(ws: seq<Wave>, dt: real)
    requires forall i :: 0 <= i < |ws| ==> !UpdateWave(ws[i], dt).1
    ensures Survivors(ws, dt) == []
  {
    NoneKept(Updates(ws, dt));
  }

  /** `n` consecutive frames. */
  function RunFrames(sim: Sim, n: nat): Sim
    decreases n
  {
    if n == 0 then sim else RunFrames(Animate(sim), n - 1)
  }

  /** No wave has more than `bound` life left. */
  predicate LifeAtMost(ws: seq<Wave>, bound: real) {
    forall w :: w in ws ==> w.life <= bound
  }

  /** A frame takes `LifePerTick` of life from every wave it keeps. */
  lemma FrameLifeBound(sim: Sim, n: nat)
    requires n >= 1
    requires LifeAtMost(sim.waves, LifePerTick * n as real)
    ensures LifeAtMost(Animate(sim).waves, LifePerTick * (n - 1) as real)
  {
    if sim.waves != [] {
      AnimateKeepsUpdated(sim);
      forall w | w in Animate(sim).waves
        ensures w.life <= LifePerTick * (n - 1) as real
      {
        var j :| 0 <= j < |Animate(sim).waves| && Animate(sim).waves[j] == w;
        var i :| 0 <= i < |sim.waves| && w == UpdateWave(sim.waves[i], FrameDelta).0;
        assert sim.waves[i] in sim.waves;
      }
    }
  }

  /** If no wave has more than one frame of life left, the next frame removes them all. */
  lemma LastFrame(sim: Sim, bound: real)
    requires LifeAtMost(sim.waves, bound) && bound <= LifePerTick
    ensures Animate(sim).waves == [] && !Animate(sim).isAnimating
  {
    forall i | 0 <= i < |sim.waves|
      ensures !UpdateWave(sim.waves[i], FrameDelta).1
    {
      assert sim.waves[i] in sim.waves;
    }
    NoSurvivors(sim.waves, FrameDelta);
  }

  /** If no wave has more than `n` frames of life left, `n` frames (n >= 1)
      empty the simulator and lower its guard. */
  lemma {:induction false} WavesRetireWithin(sim: Sim, n: nat)
    requires n >= 1
    requires LifeAtMost(sim.waves, LifePerTick * n as real)
    ensures RunFrames(sim, n).waves == []
    ensures !RunFrames(sim, n).isAnimating
    decreases n
  {
    if n == 1 {
      LastFrame(sim, LifePerTick * n as real);
    } else {
      FrameLifeBound(sim, n);
      WavesRetireWithin(Animate(sim), n - 1);
    }
  }

  /** How far one frame moves a wave's ring outwards. */
  function RadiusStep(w: Wave): real {
    w.speed * FrameDelta * FrameRate
  }

  /** The wave is still alive after each of the next `j` frames: it keeps
      some life and stays inside its maximum radius. */
  predicate Outlives(w: Wave, j: nat) {
    && w.speed >= 0.0
    && w.life > LifePerTick * j as real
    && w.radius + j as real * RadiusStep(w) < w.maxRadius
  }

  /** A frame of a simulator holding one wave that outlives `j >= 1` frames
      keeps that wave, updated, and the updated wave outlives `j - 1` frames. */
  lemma LoneWaveFrame(sim: Sim, j: nat)
    requires sim.isAnimating && |sim.waves| == 1 && j >= 1
    requires Outlives(sim.waves[0], j)
    ensures Animate(sim) == sim.(waves := [UpdateWave(sim.waves[0], FrameDelta).0])
    ensures Outlives(UpdateWave(sim.waves[0], FrameDelta).0, j - 1)
  {
  }

  /** The simulator states a page can reach: the guard is up exactly while
      waves are live, and every live wave is within its spawn bounds. */
  ghost predicate WaveInv(w: Wave) {
    && 0.0 < w.life <= 1.0
    && w.radius >= 0.0 && w.maxRadius >= 0.0
    && MinSpeed <= w.speed < MinSpeed + SpeedSpread
    && w.opacity >= 0.0 && w.thickness >= ThicknessFloor
  }

  ghost predicate SimInv(sim: Sim) {
    && (sim.isAnimating <==> sim.waves != [])
    && forall w :: w in sim.waves ==> WaveInv(w)
  }

  lemma TriggerDropKeepsInv(sim: Sim, x: real, y: real, d: Draw)
    requires SimInv(sim) && ValidDraw(sim.width, sim.height, x, y, d)
    ensures SimInv(TriggerDrop(sim, x, y, d))
    ensures !sim.isAnimating ==> TriggerDrop(sim, x, y, d).waves == [NewWave(sim, x, y, d)]
  {
    if !sim.isAnimating {
      var r := TriggerDrop(sim, x, y, d);
      assert r.waves == sim.waves + [NewWave(sim, x, y, d)];
    }
  }

  lemma AnimateKeepsInv(sim: Sim)
    requires SimInv(sim)
    ensures SimInv(Animate(sim))
  {
    if sim.waves != [] {
      AnimateKeepsUpdated(sim);
      var next := Animate(sim);
      forall w | w in next.waves
        ensures WaveInv(w)
      {
        var j :| 0 <= j < |next.waves| && next.waves[j] == w;
        var i :| 0 <= i < |sim.waves| && w == UpdateWave(sim.waves[i], FrameDelta).0;
        assert sim.waves[i] in sim.waves;
      }
    }
  }

  /** Every drop cycle ends: from any reachable state, `MaxTicks` frames leave
      the simulator empty and idle. */
  lemma CycleEnds(sim: Sim)
    requires SimInv(sim)
    ensures RunFrames(sim, MaxTicks).waves == []
    ensures !RunFrames(sim, MaxTicks).isAnimating
  {
    FrameLifeLoss();
    WavesRetireWithin(sim, MaxTicks);
  }
}
